=== FILE: README.md ===
# Scorekeeper score ingestion, in Dafny

This project models the logic core of a two-player scorekeeper web application. The Go service is the main part; a Rust rewrite holds a few more pieces. Each piece is a pure function over strings and sequences, with contracts and lemmas that state what the application promises.

- **Single score submission.** Go `ScoresSingle`, in `internal/handlers/scores.go`, checks a submitted result against the matchup. It checks, in this order:
  - form binding: every field marked `binding:"required"` is present, meaning a non-nil matchup id and non-empty winner, score and date (this runs before the matchup lookup);
  - the matchup exists;
  - the winner is one of the two players;
  - the score `"a:b"` has exactly one `:`;
  - each half is a signed 16-bit decimal (Go `strconv.ParseInt(s, 10, 16)`);
  - the date is a valid `YYYY-MM-DD` (Go `time.Parse("2006-01-02", …)`, full calendar rules).

  The larger half becomes the winner's score. The result is either one storable record or the first error met.
- **Batch submission.** Go `ScoresBatch`, in the same file, first requires a non-nil matchup id and a non-empty text (form binding), then looks up the matchup, then reads the text one line at a time:
  - `"\r\n"` becomes `"\n"`;
  - the text is split on `"\n"`;
  - each line is trimmed and split into white-space fields;
  - each line is stored when it has three fields that pass the same checks, and skipped otherwise.

  Past binding and the lookup, a bad line never stops the batch.
- **Cumulative wins chart.** This is the loop of Go `ScoresChart`. It groups the fetched scores by date key and walks the keys in map order, which Go leaves unspecified. After each date it emits one point per player. A score counts for player 1 when player 1 won it, and for player 2 otherwise.
- **Rust batch combinator.** `parse_match_scores`, in `src/routes/scores/post_batch.rs`, splits on `'\n'` and hands every segment to the form constructor. The first rejected segment fails the whole call with the context "Failed to parse match score".
- **Rust runtime environment.** This is `Environment` in `src/configuration.rs`:
  - its `as_str` spelling;
  - the case-insensitive `TryFrom<String>` parse;
  - the start of `get_configuration`: the default `"dev"`, `PORT` required in production, and the settings file `<env>.yaml`.
- **Go test helper.** `contains(s, substr)`, in `internal/testhelpers/testhelpers.go`, is a recursive substring test. It is proved equal to "occurs at some offset".

Library behaviour the core relies on is modelled in its own modules:
- `Text` holds Go's `strings.Split`, `ReplaceAll` of CRLF, `TrimSpace`, `Fields` with `unicode.IsSpace`, and ASCII lower-casing.
- `Decimal` holds `strconv.ParseInt` with base 10 and bit size 16.
- `Dates` holds `time.Parse` with the layout `2006-01-02`.
- `Wrappers` holds `Option`, `Result` and a generic filter-map.

The database is not modelled:
- A looked-up matchup is a parameter, and `None` means the lookup failed.
- A stored record is an element of the returned sequence.
- The scores a chart is drawn from are a parameter.

Go's map iteration order is a parameter `dates`, which may be any duplicate-free listing of the date keys. `MatchScoreForm::new`, the Rust form constructor, is a function parameter `parse`.

Behaviour that differs from what one might expect, modelled as the code has it:
- **The Go batch is not all-or-nothing.** Lines that fail a check are skipped, and the rest are stored. Only the Rust combinator is all-or-nothing.
- **The chart's dates are not sorted.** The comment above the loop says "chronological order", but the keys come from ranging over a map, so the model proves its facts for every order. The final totals are the same in every order.
- **Signed scores are accepted.** `strconv.ParseInt` accepts a sign, so `"-1:2"` is stored as 2 to -1. The end-to-end test at `internal/handlers/e2e_test.go:318-327` expects an error for this input, but the parsing code does not produce one. The model follows the code, as `Scenarios.NegativeScoreAccepted` shows.

## Model

| member | source | states |
|---|---|---|
| Scores.Normalise | internal/handlers/scores.go:121-124 | the stored pair is ordered (winner's score >= loser's) and is a permutation of the two parsed halves |
| Scores.ParseScore | internal/handlers/scores.go:102-124 | an accepted score holds exactly one ':' and gives an ordered pair of 16-bit values; a score without exactly one ':' is "Invalid score format"; the only errors are the three score errors |
| Scores.ParseScoreHalves | internal/handlers/scores.go:103-124 | for two colon-free halves around one ':', the winner half is checked before the loser half, and the result is (max, min) of the two values |
| Scores.ParseScoreNormalises | internal/handlers/scores.go:109-124 | any two 16-bit values written "x:y" are accepted and parse to (max, min): parsing normalises rather than round-trips |
| Scores.ParseScoreIdempotent | internal/handlers/scores.go:121-124 | writing an accepted score back as "winner:loser" and parsing it again gives the same pair |
| Scores.ParseSingle | internal/handlers/scores.go:97-131 | an unknown winner is "Player not in match" whatever the score and date hold; a score without exactly one ':' is "Invalid score format"; a score that fails is reported with the score check's own error ("Invalid winner score" before "Invalid loser score"); a good score with a bad date is "Invalid date format", and that error only comes after the score passed; accepted iff winner, score and date all pass; an accepted record is storable, keeps the submitted winner, and its date formats back to the submitted text |
| Scores.MissingSingle | internal/handlers/scores.go:21-26 | the fields that fail the `required` rule are exactly the nil matchup id and the empty winner, score and date, listed in declaration order; nothing is missing iff all four are present |
| Scores.ScoresSingle | internal/handlers/scores.go:83-95 | a missing required field is a binding error naming the missing fields, before any lookup; with all fields present a failed matchup lookup is "Match not found" and is the only way to get that error; any other failure is the single-score check's error; a record is stored iff binding, lookup and the check all pass, and it is exactly the record the single-score check builds, so it belongs to the looked-up matchup, names one of its players and came from non-empty fields |
| Scores.SingleAcceptsExactly | internal/handlers/scores.go:97-142 | a submission "a:b" is stored iff the winner is a player, both halves are 16-bit decimals and the date is valid, and it is stored as (matchup, winner, max, min, date) |
| Scores.SingleErrorOrder | internal/handlers/scores.go:97-131 | for every submission "a:b" with colon-free halves, the outcome is the first failing check in the order winner, winner half, loser half, date, and otherwise the record (matchup, winner, max, min, date) |
| Scores.Message | internal/handlers/scores.go:93-129 | every redirect error text is non-empty; the four errors about the submitted text, and only they, start with "Invalid " |
| Scores.MessageInjective | internal/handlers/scores.go:93-129 | the six redirect error messages are pairwise distinct |
| Scores.ParseLine | internal/handlers/scores.go:170-214 | a line that is stored yields a storable record: right matchup, winner in the matchup, ordered 16-bit scores, valid date |
| Scores.LineAgreesWithSingle | internal/handlers/scores.go:175-214 | a batch line is stored iff it has three fields that the single path would accept as (date, winner, score), and as the same record |
| Scores.LineOfWords | internal/handlers/scores.go:175-182 | the line "date winner score" of space-free words is read as exactly that single submission |
| Scores.ParseLineTrailingSpace | internal/handlers/scores.go:170 | a trailing white-space character does not change how a line is read |
| Scores.ParseLines | internal/handlers/scores.go:169-226 | at most one record per line, and every record is storable |
| Scores.ParseLinesAppend | internal/handlers/scores.go:169-226 | the line loop distributes over concatenation: lines are handled independently and in order |
| Scores.BadLineSkipped | internal/handlers/scores.go:176-208 | a rejected line is skipped without affecting the records of the lines before and after it |
| Scores.GoodLineKept | internal/handlers/scores.go:169-226 | an accepted line contributes its record at its own place between the records of the lines around it |
| Scores.AllLinesKept | internal/handlers/scores.go:169-226 | when every line is accepted, there is one record per line, record i coming from line i |
| Scores.Lines | internal/handlers/scores.go:167 | the batch text has one line more than it has '\n' characters |
| Scores.ParseBatch | internal/handlers/scores.go:166-226 | a batch stores at most one record per line of the text, each storable |
| Scores.MissingBatch | internal/handlers/scores.go:28-31 | the fields that fail the `required` rule are exactly the nil matchup id and the empty batch text; nothing is missing iff both are present |
| Scores.ScoresBatch | internal/handlers/scores.go:152-228 | the batch fails iff binding fails (nil id or empty text, reported as a binding error naming the missing fields) or the matchup lookup fails ("Match not found", only after binding passed); past those two it never fails and stores exactly the records of the batch parse (good lines kept in order, bad lines skipped), at most one per line, each belonging to the matchup and naming one of its players |
| Scores.BatchIgnoresCrlf | internal/handlers/scores.go:167-170 | turning "\r\n" into "\n" before splitting makes no difference to the stored records, since the '\r' left at a line end is trimmed |
| Text.Split | internal/handlers/scores.go:103 | `strings.Split` with a one-character separator gives one piece more than there are separators, and no piece holds the separator |
| Text.ReplaceCrlf | internal/handlers/scores.go:167 | replacing "\r\n" by "\n" never lengthens the text and keeps the number of '\n' characters; which characters go is stated by `Text.SplitReplaceCrlf` |
| Text.TrimSpace | internal/handlers/scores.go:170 | a trimmed text is empty or starts and ends with a non-space character |
| Text.Fields | internal/handlers/scores.go:175 | every field is non-empty and space-free, and there are no fields exactly when the text is all white space |
| Text.JoinSplit | internal/handlers/scores.go:167 | `strings.Split` is undone by joining with the separator |
| Text.SplitJoin | internal/handlers/scores.go:103 | separator-free pieces joined by the separator split back into the same pieces |
| Text.SplitReplaceCrlf | internal/handlers/scores.go:167 | splitting after the CRLF replacement gives, line for line, the lines of the plain split, where a line that a '\n' follows loses its trailing '\r' exactly when it has one, and every other line, the last included, is unchanged |
| Text.TrimSpaceSlice | internal/handlers/scores.go:170 | `strings.TrimSpace` returns a contiguous slice of its input whose cut-off ends are all white space |
| Text.TrimSpaceDropsTrailing | internal/handlers/scores.go:170 | trimming ignores a trailing white-space character |
| Text.FieldsUnwords | internal/handlers/scores.go:175 | `strings.Fields` of non-empty space-free words joined by blanks gives back those words |
| Text.FieldsTrimSpace | internal/handlers/scores.go:170-175 | trimming before `strings.Fields` does not change the fields |
| Text.FieldsConcat | internal/handlers/scores.go:175 | the fields, put back together, are the text with every white-space character removed, so `strings.Fields` loses nothing but white space |
| Text.SpaceShape | internal/handlers/scores.go:170-175 | the white space `TrimSpace` and `Fields` cut on is, among ASCII characters, exactly tab, line feed, vertical tab, form feed, carriage return and space; no white space character is an ASCII letter, an ASCII digit, ':', '-' or '+' |
| Text.ToLowerAscii | src/configuration.rs:63 | lower-casing keeps the length and maps each character on its own, ASCII capitals to their small letters and every other character to itself |
| Text.ToLowerAsciiIdempotent | src/configuration.rs:63 | lower-casing an already lower-cased text changes nothing |
| Decimal.ParseInt16 | internal/handlers/scores.go:109-119 | an accepted half is non-empty and its value lies in the signed 16-bit range |
| Decimal.ParseFormatInt | internal/handlers/scores.go:109 | every 16-bit value's decimal spelling parses back to it |
| Decimal.ParseInt16Accepts | internal/handlers/scores.go:109-119 | an optional sign followed by digits is accepted iff its signed value is within the 16-bit range, and then parses to that value |
| Decimal.ParseInt16Shape | internal/handlers/scores.go:109-119 | every accepted text is an optional sign followed by at least one digit |
| Dates.ParseDate | internal/handlers/scores.go:126-131 | an accepted date is a valid calendar date written in ten characters |
| Dates.FormatDate | internal/handlers/scores.go:302 | `Format("2006-01-02")` of a date with a four-digit year spells ten characters: four digits, '-', two digits, '-', two digits |
| Dates.ParseFormatDate | internal/handlers/scores.go:127 | every valid date's "YYYY-MM-DD" spelling parses back to it |
| Dates.FormatParseDate | internal/handlers/scores.go:127 | an accepted date text is exactly the spelling of the date it parses to |
| Dates.DaysIn | internal/handlers/scores.go:127 | months have 28 to 31 days, and 29 exactly for February of a leap year |
| Dates.LeapDay | internal/handlers/scores.go:127 | the text "YYYY-02-29" is accepted exactly in leap years |
| Chart.GroupByDate | internal/handlers/scores.go:300-304 | the grouping map has the scores' date keys as its keys, and each key's group is that date's scores in fetched order |
| Chart.Tally | internal/handlers/scores.go:313-319 | one date's scores add their player-1 wins to the first counter and all other scores to the second |
| Chart.Walk | internal/handlers/scores.go:312-322 | one point per date in each series; neither series decreases or drops below its starting counter |
| Chart.WalkPoint | internal/handlers/scores.go:312-322 | point i counts exactly the scores whose date is among the first i+1 dates walked |
| Chart.WalkSums | internal/handlers/scores.go:312-322 | point i of the walk is its starting counters plus the tallies of the groups of the first i+1 dates walked |
| Chart.SumsCount | internal/handlers/scores.go:300-313 | adding up the groups of duplicate-free dates counts exactly the scores on those dates |
| Chart.RestrictMembers | internal/handlers/scores.go:300-304 | selecting a set of date keys keeps exactly the scores whose date key is selected |
| Chart.CountPartition | internal/handlers/scores.go:314-318 | every score counts for exactly one of the two players |
| Chart.ScoresChart | internal/handlers/scores.go:293-322 | the x axis is the walked dates, one per distinct date key; both series have one point per date, are non-negative and non-decreasing; the series are named "Wins of " and the player |
| Chart.ChartPoint | internal/handlers/scores.go:307-322 | point i of each series counts that player's wins on the first i+1 dates walked, with a non-player-1 winner counted for player 2 |
| Chart.ChartStep | internal/handlers/scores.go:312-321 | from one point to the next, each series grows by exactly that date's wins for its player |
| Chart.ChartTotals | internal/handlers/scores.go:294-322 | the last point of each series is that player's total wins |
| Chart.ChartTotalsSum | internal/handlers/scores.go:294-322 | the two final totals add up to the number of scores |
| Chart.TotalsIndependentOfOrder | internal/handlers/scores.go:307-312 | the final totals are the same whatever order the map yields its keys in |
| PostBatch.FirstRejected | src/routes/scores/post_batch.rs:39-41 | the first segment the constructor rejects: all segments before it are accepted |
| PostBatch.ParseSegments | src/routes/scores/post_batch.rs:38-42 | succeeds iff every segment is accepted, then with one form per segment in segment order; otherwise fails with the first rejected segment's error under the context "Failed to parse match score" |
| PostBatch.ParseMatchScores | src/routes/scores/post_batch.rs:36-43 | on success one form per '\n'-separated segment, blank ones included; every failure carries the context |
| PostBatch.AllTagged | src/routes/scores/post_batch.rs:36-43 | when the constructor tags each form with the id it was given, every form of a successful batch carries the batch's id |
| PostBatch.OneBadSegmentRejects | src/routes/scores/post_batch.rs:40 | one rejected segment anywhere fails the whole batch: no partial result |
| PostBatch.TrailingNewlineReachesParser | src/routes/scores/post_batch.rs:37-40 | segments are not trimmed or skipped: the empty segment after a final '\n' reaches the constructor |
| PostBatch.SingleScoreParses | src/routes/scores/post_batch.rs:49-55 | the one-line input gives one form, tagged with the supplied id |
| PostBatch.TwoLinesParse | src/routes/scores/post_batch.rs:38-42 | two accepted lines joined by '\n' give their two forms in order |
| PostBatch.MultipleScoresParse | src/routes/scores/post_batch.rs:57-64 | the two-line input gives two forms, both tagged with the supplied id |
| Configuration.AsStr | src/configuration.rs:51-56 | each environment is spelled as a non-empty lower-case word |
| Configuration.TryFrom | src/configuration.rs:62-71 | an accepted input's lower-cased form is the environment's spelling; a rejected input's error message is built from its lower-cased form |
| Configuration.UnsupportedMessage | src/configuration.rs:66-69 | the error message starts with the rejected value |
| Configuration.TryFromAsStr | src/configuration.rs:51-68 | round trip: parsing an environment's spelling gives that environment |
| Configuration.TryFromAccepts | src/configuration.rs:63-70 | an input is accepted iff its lower-cased form is the spelling of some environment |
| Configuration.TryFromIgnoresCase | src/configuration.rs:63 | an input and its lower-cased form parse alike |
| Configuration.TryFromDev | src/configuration.rs:63-64 | the inputs read as `Dev` are exactly the eight capitalisations of "dev" |
| Configuration.TryFromErrorNamesInput | src/configuration.rs:66-69 | the error for a rejected input starts with that input lower-cased |
| Configuration.UpperCaseDevAccepted | src/configuration.rs:63-64 | "DEV" is read as `Dev` |
| Configuration.CapitalisedAccepted | src/configuration.rs:63-65 | the capitalised spelling of either environment ("Dev", "Production") is accepted as it |
| Configuration.EnvironmentFileName | src/configuration.rs:28 | the settings file name is the environment's spelling followed by ".yaml" |
| Configuration.SelectEnvironment | src/configuration.rs:18-28 | the selected environment is the parse of `APP_ENVIRONMENT`, or of "dev" when it is unset; a selection names the environment's own settings file; `APP_PORT` is set iff the environment is production, and then to the value of `PORT` |
| Configuration.DefaultIsDev | src/configuration.rs:18-21 | with `APP_ENVIRONMENT` unset the environment is `Dev` with "dev.yaml", whatever `PORT` holds |
| Configuration.SelectEnvironmentFails | src/configuration.rs:18-27 | the start of the configuration fails iff the environment name is unsupported, or it is production and `PORT` is unset |
| TestHelpers.Contains | internal/testhelpers/testhelpers.go:217-221 | a pattern longer than the text is never contained; the empty pattern is always contained |
| TestHelpers.ContainsIffOccurs | internal/testhelpers/testhelpers.go:217-221 | `contains(s, t)` holds iff `t` occurs in `s` at some offset |
| TestHelpers.ContainsPrefix | internal/testhelpers/testhelpers.go:218-220 | every prefix of `s`, `s` itself included, is contained in `s` |
| TestHelpers.ContainsInContext | internal/testhelpers/testhelpers.go:217-221 | what `s` contains stays contained when text is added on either side |
| Scenarios.EmptyScoreFailsBinding | internal/handlers/e2e_test.go:299-307 | an empty score with the other fields present is rejected by binding, naming only the score field, whatever the lookup would return |
| Scenarios.EmptyBatchFailsBinding | internal/handlers/scores.go:28-31 | an empty batch text is a binding error naming only the text field, not an empty batch |
| Scenarios.UnknownWinnerFirst | internal/handlers/handlers_integration_test.go:131-150 | the winner "INVALID" is "Player not in match" even when the score and date are also bad |
| Scenarios.ScoreWithoutColon | internal/handlers/handlers_integration_test.go:152-171 | the score "invalid" for a real player is "Invalid score format" |
| Scenarios.NotADate | internal/handlers/e2e_test.go:308-317 | the date "not-a-date" with score "2:1" is "Invalid date format" |
| Scenarios.NegativeScoreAccepted | internal/handlers/scores.go:109-124 | "-1:2" is accepted and stored as 2 to -1 |
| Scenarios.WinnerScoreOutOfRange | internal/handlers/scores.go:109-113 | "32768:1" is "Invalid winner score", since 32768 is outside the 16-bit range |
| Scenarios.TwoWordLine | internal/handlers/scores.go:175-178 | the line "invalid line" has two fields and is skipped |
| Scenarios.GoodLine | internal/handlers/scores.go:170-225 | a line "date winner score" whose parts pass is stored as the matching record |
| Scenarios.GoodLinesAroundBadOne | internal/handlers/scores.go:169-226 | two good lines around a two-word line store the two records in order |
| Scenarios.MixedBatch | internal/handlers/handlers_integration_test.go:206-226 | the mixed batch of the integration test stores its two good lines, player 1's 2:1 then player 2's 3:2, and skips "invalid line" |

## Left out

- HTTP plumbing is not modelled: redirects and their query strings, template rendering, and the chart's rendering options. The only things modelled are the error message a redirect carries (`Scores.Message`) and the chart's x axis, series and series names.
- Form binding is modelled only as the `required` rule (`Scores.MissingSingle`, `Scores.MissingBatch`), which rejects before the matchup lookup. The validator's error text is not modelled: the rejection carries the list of missing fields instead. Parsing the matchup id text as a UUID is not modelled either; the id is already a number, and the nil UUID is 0. A malformed UUID text, which binding also rejects, has no counterpart.
- Scores.ScoresSingle, Scores.ScoresBatch: require that a looked-up matchup carries the requested id, because the database lookup is by that id and the database is not modelled.
- The database is not modelled. This covers the matchup lookup, the score query with its six-month cutoff, and the inserts. The lookup result and the fetched scores are parameters, and an insert is an element of the output sequence.
- The database's own error on a single insert is not modelled (internal/handlers/scores.go:144-147). It comes from a system outside this model. The insert error ignored by the batch needs nothing.
- `uuid.New()` and `time.Now()` are not modelled, because they are random and clock values. A stored record carries no game id and no creation time.
- Scores.Entry: a record's scores are unbounded integers bounded by `Storable`. The `int16` conversion at internal/handlers/scores.go:138-139 is therefore the identity on every stored value.
- Chart.ScoresChart: its rows carry the date key already formatted as "2006-01-02". A fetched `PlayedAt` written back with `Format` is `Dates.FormatDate`.
- Chart.ScoresChart: it requires `dates` to be a duplicate-free listing of the date keys, which is what ranging over a Go map yields. The order itself is not fixed, and every property is proved for all orders.
- Configuration.TryFrom: lower-cases ASCII letters only, where Rust's `to_lowercase` is full Unicode. Which inputs are accepted does not depend on this. Two non-ASCII characters lower-case to ASCII: U+212A KELVIN SIGN becomes 'k', and U+0130 becomes 'i' followed by U+0307. Neither can complete "dev" or "production": 'k' occurs in neither spelling, and the U+0307 that follows the 'i' occurs in neither either. Only the error text for non-ASCII input can differ.
- Configuration.SelectEnvironment: the two `expect` panics of `get_configuration` become the errors `UnsupportedEnvironment` and `MissingPort`.
- Configuration.SelectEnvironment: setting `APP_PORT` is returned as a value instead of written to the process environment.
- The rest of `get_configuration` is not modelled. That is locating the working directory, reading `base.yaml` and the environment's file, and deserialising the settings. It is file I/O and the `config` crate's logic.
- `MatchScoreForm::new` is not part of this model. It is the parameter `parse`, and properties that need something of it (it tags forms with the id, it rejects a given segment) take that as a precondition.
- Decimal.ParseInt16: it works on characters, where Go works on the bytes of the UTF-8 text. A non-ASCII character is rejected either way.
- Decimal.ParseInt16: Go's separate out-of-range and overflow paths both end in an error, and the model has one rejection for both.
- Text.IsSpace: it is `unicode.IsSpace` over characters, and Go's `TrimSpace` and `Fields` decode UTF-8 runes. For well-formed text the two agree; invalid UTF-8 is not modelled.
- The chart is not given a concrete worked example. Its properties are proved for every input instead.
- Text.ReplaceCrlf: its own contract only bounds the length and keeps the '\n' count; the exact effect of the replacement is stated piece by piece in `Text.SplitReplaceCrlf`, the form in which the batch handler uses it.

=== FILE: chart.dfy ===
/**
 * The cumulative-wins computation of `ScoresChart` in
 * internal/handlers/scores.go: the scores are grouped by their date key, the
 * keys are walked in the order Go's map iteration yields them (unspecified,
 * so here any duplicate-free enumeration of the keys, given as a parameter),
 * and after each date one point is appended to each player's series. A score
 * counts for player 1 when its winner is player 1, and for player 2 otherwise.
 */
module Chart {
  import opened Scores

  /** The two columns of a fetched score that the chart reads: its date key ("2006-01-02") and its winner. */
  datatype ScoreRow = ScoreRow(dateKey: string, winner: string)

  /** The x axis and the two series handed to the line chart, with their series names. */
  datatype WinChart = WinChart(xAxis: seq<string>, player1Wins: seq<int>, player2Wins: seq<int>,
                               player1Label: string, player2Label: string)

  /** The distinct date keys of `rows`. */
  function KeysOf(rows: seq<ScoreRow>): set<string>
  {
    if |rows| == 0 then {} else KeysOf(rows[..|rows| - 1]) + {rows[|rows| - 1].dateKey}
  }

  /** The rows whose date key is in `keys`, in their original order. */
  function Restrict(rows: seq<ScoreRow>, keys: set<string>): (r: seq<ScoreRow>)
    ensures |r| <= |rows|
  {
    if |rows| == 0 then []
    else
      var last := rows[|rows| - 1];
      Restrict(rows[..|rows| - 1], keys) + (if last.dateKey in keys then [last] else [])
  }

  /** The rows of one date, in their original order. */
  function RowsOn(rows: seq<ScoreRow>, key: string): seq<ScoreRow>
  {
    Restrict(rows, {key})
  }

  /** Number of rows won by `p`. */
  function CountWinner(rows: seq<ScoreRow>, p: string): nat
  {
    if |rows| == 0 then 0
    else CountWinner(rows[..|rows| - 1], p) + (if rows[|rows| - 1].winner == p then 1 else 0)
  }

  /** Number of rows not won by `p`. */
  function CountOther(rows: seq<ScoreRow>, p: string): nat
  {
    if |rows| == 0 then 0
    else CountOther(rows[..|rows| - 1], p) + (if rows[|rows| - 1].winner != p then 1 else 0)
  }

  predicate Distinct(s: seq<string>)
  {
    forall i, j :: 0 <= i < j < |s| ==> s[i] != s[j]
  }

  function SetOf(s: seq<string>): set<string>
  {
    set x | x in s
  }

  predicate NonDecreasing(s: seq<int>)
  {
    forall i, j :: 0 <= i < j < |s| ==> s[i] <= s[j]
  }

  // ---------------------------------------------------------------------------
  // Facts about counting and restricting

  lemma {:induction false} CountPartition(rows: seq<ScoreRow>, p: string)
    ensures CountWinner(rows, p) + CountOther(rows, p) == |rows|
  {
    if |rows| > 0 {
      CountPartition(rows[..|rows| - 1], p);
    }
  }

  lemma {:induction false} CountAppend(a: seq<ScoreRow>, b: seq<ScoreRow>, p: string)
    ensures CountWinner(a + b, p) == CountWinner(a, p) + CountWinner(b, p)
    ensures CountOther(a + b, p) == CountOther(a, p) + CountOther(b, p)
    decreases |b|
  {
    if |b| > 0 {
      assert (a + b)[..|a + b| - 1] == a + b[..|b| - 1];
      CountAppend(a, b[..|b| - 1], p);
    } else {
      assert a + b == a;
    }
  }

  lemma {:induction false} RestrictAbsent(rows: seq<ScoreRow>, key: string)
    requires key !in KeysOf(rows)
    ensures RowsOn(rows, key) == []
  {
    if |rows| > 0 {
      RestrictAbsent(rows[..|rows| - 1], key);
    }
  }

  /** `Restrict` keeps exactly the rows whose date key is selected. */
  lemma {:induction false} RestrictMembers(rows: seq<ScoreRow>, keys: set<string>)
    ensures forall x :: x in Restrict(rows, keys) <==> x in rows && x.dateKey in keys
  {
    if |rows| > 0 {
      var init, last := rows[..|rows| - 1], rows[|rows| - 1];
      RestrictMembers(init, keys);
      assert rows == init + [last];
    }
  }

  lemma {:induction false} RestrictAll(rows: seq<ScoreRow>, keys: set<string>)
    requires KeysOf(rows) <= keys
    ensures Restrict(rows, keys) == rows
  {
    if |rows| > 0 {
      RestrictAll(rows[..|rows| - 1], keys);
      assert rows[..|rows| - 1] + [rows[|rows| - 1]] == rows;
    }
  }

  /** Adding a new key to the selection adds that date's rows to both counts. */
  lemma {:induction false} CountRestrictAdd(rows: seq<ScoreRow>, keys: set<string>, key: string, p: string)
    requires key !in keys
    ensures CountWinner(Restrict(rows, keys + {key}), p)
              == CountWinner(Restrict(rows, keys), p) + CountWinner(RowsOn(rows, key), p)
    ensures CountOther(Restrict(rows, keys + {key}), p)
              == CountOther(Restrict(rows, keys), p) + CountOther(RowsOn(rows, key), p)
  {
    if |rows| > 0 {
      var init, last := rows[..|rows| - 1], rows[|rows| - 1];
      CountRestrictAdd(init, keys, key, p);
      CountAppend(Restrict(init, keys + {key}), if last.dateKey in keys + {key} then [last] else [], p);
      CountAppend(Restrict(init, keys), if last.dateKey in keys then [last] else [], p);
      CountAppend(RowsOn(init, key), if last.dateKey in {key} then [last] else [], p);
    }
  }

  lemma {:induction false} DistinctSetSize(s: seq<string>)
    requires Distinct(s)
    ensures |SetOf(s)| == |s|
  {
    if |s| > 0 {
      var init := s[..|s| - 1];
      DistinctSetSize(init);
      assert SetOf(s) == SetOf(init) + {s[|s| - 1]};
      assert s[|s| - 1] !in SetOf(init);
    }
  }

  // ---------------------------------------------------------------------------
  // The computation

  /**
   * The grouping loop: each score is appended to its date key's slice, so a
   * key's group holds that date's scores in their fetched order.
   */
  function GroupByDate(rows: seq<ScoreRow>): (g: map<string, seq<ScoreRow>>)
    ensures g.Keys == KeysOf(rows)
    ensures forall k :: k in g ==> g[k] == RowsOn(rows, k)
  {
    if |rows| == 0 then map[]
    else
      var init, last := rows[..|rows| - 1], rows[|rows| - 1];
      var g := GroupByDate(init);
      var k := last.dateKey;
      if k !in g then RestrictAbsent(init, k); g[k := [last]]
      else g[k := g[k] + [last]]
  }

  /** The inner loop over one date's scores, bumping one of the two running counters per score. */
  function Tally(group: seq<ScoreRow>, player1: string, c1: int, c2: int): (r: (int, int))
    ensures r == (c1 + CountWinner(group, player1), c2 + CountOther(group, player1))
  {
    if |group| == 0 then (c1, c2)
    else
      CountAppend([group[0]], group[1..], player1);
      assert [group[0]] + group[1..] == group;
      if group[0].winner == player1 then Tally(group[1..], player1, c1 + 1, c2)
      else Tally(group[1..], player1, c1, c2 + 1)
  }

  /**
   * The outer loop over the dates: after each date's scores are tallied, the
   * two running counters are appended to the two series.
   */
  function Walk(groups: map<string, seq<ScoreRow>>, dates: seq<string>, player1: string, c1: int, c2: int)
    : (r: (seq<int>, seq<int>))
    ensures |r.0| == |dates| && |r.1| == |dates|
    ensures forall i :: 0 <= i < |dates| ==> c1 <= r.0[i] && c2 <= r.1[i]
    ensures NonDecreasing(r.0) && NonDecreasing(r.1)
  {
    if |dates| == 0 then ([], [])
    else
      var (n1, n2) := Tally(GroupOf(groups, dates[0]), player1, c1, c2);
      var (r1, r2) := Walk(groups, dates[1..], player1, n1, n2);
      ([n1] + r1, [n2] + r2)
  }

  /** `groups` holds, for each date key of `rows`, that date's rows. */
  ghost predicate GroupsOf(rows: seq<ScoreRow>, groups: map<string, seq<ScoreRow>>)
  {
    forall k :: (if k in groups then groups[k] else []) == RowsOn(rows, k)
  }

  lemma GroupByDateGroups(rows: seq<ScoreRow>)
    ensures GroupsOf(rows, GroupByDate(rows))
  {
    var g := GroupByDate(rows);
    forall k
      ensures (if k in g then g[k] else []) == RowsOn(rows, k)
    {
      if k !in g {
        RestrictAbsent(rows, k);
      }
    }
  }

  /** A suffix of a duplicate-free sequence is duplicate-free. */
  lemma DistinctTail(dates: seq<string>)
    requires Distinct(dates) && |dates| > 0
    ensures Distinct(dates[1..])
  {
    var tail := dates[1..];
    forall i, j | 0 <= i < j < |tail|
      ensures tail[i] != tail[j]
    {
      assert tail[i] == dates[i + 1] && tail[j] == dates[j + 1];
    }
  }

  /** The group the walk tallies for a date: that date's slice, or nothing when the key is absent. */
  function GroupOf(groups: map<string, seq<ScoreRow>>, d: string): seq<ScoreRow>
  {
    if d in groups then groups[d] else []
  }

  /** The walk's first point is the first date's tally, and the rest is the walk from there. */
  lemma WalkCons(groups: map<string, seq<ScoreRow>>, dates: seq<string>, player1: string, c1: int, c2: int)
    requires |dates| > 0
    ensures var t := Tally(GroupOf(groups, dates[0]), player1, c1, c2);
            var r := Walk(groups, dates, player1, c1, c2);
            var rt := Walk(groups, dates[1..], player1, t.0, t.1);
            r.0 == [t.0] + rt.0 && r.1 == [t.1] + rt.1
  {
  }

  /** With `groups` holding the groups of `rows`, the walk tallies a date's own rows. */
  lemma GroupOfRows(rows: seq<ScoreRow>, groups: map<string, seq<ScoreRow>>, d: string)
    requires GroupsOf(rows, groups)
    ensures GroupOf(groups, d) == RowsOn(rows, d)
  {
    assert (if d in groups then groups[d] else []) == RowsOn(rows, d);
  }

  /** Wins of `p` summed over the groups of the dates `ds`. */
  function WinsOn(groups: map<string, seq<ScoreRow>>, ds: seq<string>, p: string): nat
  {
    if |ds| == 0 then 0 else CountWinner(GroupOf(groups, ds[0]), p) + WinsOn(groups, ds[1..], p)
  }

  /** Rows not won by `p`, summed over the groups of the dates `ds`. */
  function OthersOn(groups: map<string, seq<ScoreRow>>, ds: seq<string>, p: string): nat
  {
    if |ds| == 0 then 0 else CountOther(GroupOf(groups, ds[0]), p) + OthersOn(groups, ds[1..], p)
  }

  /** Point `i` of the walk is the starting counter plus the tallies of the first `i + 1` groups walked. */
  lemma {:induction false} WalkSums(groups: map<string, seq<ScoreRow>>, dates: seq<string>,
                                    player1: string, c1: int, c2: int, i: nat)
    requires i < |dates|
    ensures Walk(groups, dates, player1, c1, c2).0[i] == c1 + WinsOn(groups, dates[..i + 1], player1)
    ensures Walk(groups, dates, player1, c1, c2).1[i] == c2 + OthersOn(groups, dates[..i + 1], player1)
  {
    var t := Tally(GroupOf(groups, dates[0]), player1, c1, c2);
    WalkCons(groups, dates, player1, c1, c2);
    assert dates[..i + 1][1..] == dates[1..][..i];
    if i > 0 {
      WalkSums(groups, dates[1..], player1, t.0, t.1, i - 1);
      assert dates[1..][..i - 1 + 1] == dates[1..][..i];
    }
  }

  /** Selecting no date keys selects no rows. */
  lemma {:induction false} RestrictNone(rows: seq<ScoreRow>)
    ensures Restrict(rows, {}) == []
  {
    if |rows| > 0 {
      RestrictNone(rows[..|rows| - 1]);
    }
  }

  /** The keys of a duplicate-free sequence are its head, which is not among the rest, and the keys of its tail. */
  lemma SetOfCons(ds: seq<string>)
    requires Distinct(ds) && |ds| > 0
    ensures Distinct(ds[1..])
    ensures SetOf(ds) == SetOf(ds[1..]) + {ds[0]}
    ensures ds[0] !in SetOf(ds[1..])
  {
    var rest := ds[1..];
    DistinctTail(ds);
    assert ds == [ds[0]] + rest;
    forall j | 0 <= j < |rest|
      ensures rest[j] != ds[0]
    {
      assert rest[j] == ds[j + 1];
    }
  }

  /** Summing the groups of duplicate-free dates counts the rows on those dates. */
  lemma {:induction false} SumsCount(rows: seq<ScoreRow>, groups: map<string, seq<ScoreRow>>, ds: seq<string>, p: string)
    requires GroupsOf(rows, groups) && Distinct(ds)
    ensures WinsOn(groups, ds, p) == CountWinner(Restrict(rows, SetOf(ds)), p)
    ensures OthersOn(groups, ds, p) == CountOther(Restrict(rows, SetOf(ds)), p)
  {
    if |ds| == 0 {
      assert SetOf(ds) == {};
      RestrictNone(rows);
    } else {
      var rest := ds[1..];
      SetOfCons(ds);
      SumsCount(rows, groups, rest, p);
      GroupOfRows(rows, groups, ds[0]);
      CountRestrictAdd(rows, SetOf(rest), ds[0], p);
    }
  }

  /**
   * Point `i` of the walk is the starting counter plus the wins on the first
   * `i + 1` dates walked, whatever the order of the dates.
   */
  lemma WalkPoint(rows: seq<ScoreRow>, groups: map<string, seq<ScoreRow>>, dates: seq<string>,
                  player1: string, c1: int, c2: int, i: nat)
    requires GroupsOf(rows, groups) && Distinct(dates) && i < |dates|
    ensures Walk(groups, dates, player1, c1, c2).0[i] == c1 + CountWinner(Restrict(rows, SetOf(dates[..i + 1])), player1)
    ensures Walk(groups, dates, player1, c1, c2).1[i] == c2 + CountOther(Restrict(rows, SetOf(dates[..i + 1])), player1)
  {
    WalkSums(groups, dates, player1, c1, c2, i);
    var prefix := dates[..i + 1];
    assert Distinct(prefix) by {
      forall a, b | 0 <= a < b < |prefix|
        ensures prefix[a] != prefix[b]
      {
        assert prefix[a] == dates[a] && prefix[b] == dates[b];
      }
    }
    SumsCount(rows, groups, prefix, player1);
  }

  /**
   * `ScoresChart` after the lookups: `dates` is the order in which Go's map
   * iteration yields the distinct date keys of the fetched scores.
   */
  function ScoresChart(m: Matchup, rows: seq<ScoreRow>, dates: seq<string>): (c: WinChart)
    requires Distinct(dates) && SetOf(dates) == KeysOf(rows)
    ensures c.xAxis == dates && |c.player1Wins| == |dates| && |c.player2Wins| == |dates|
    ensures |dates| == |KeysOf(rows)|
    ensures NonDecreasing(c.player1Wins) && NonDecreasing(c.player2Wins)
    ensures forall i :: 0 <= i < |dates| ==> 0 <= c.player1Wins[i] && 0 <= c.player2Wins[i]
    ensures c.player1Label == "Wins of " + m.player1 && c.player2Label == "Wins of " + m.player2
  {
    DistinctSetSize(dates);
    var w := Walk(GroupByDate(rows), dates, m.player1, 0, 0);
    WinChart(dates, w.0, w.1, "Wins of " + m.player1, "Wins of " + m.player2)
  }

  /**
   * Point `i` of the chart counts, for each player, the wins on the first
   * `i + 1` dates of the walk.
   */
  lemma ChartPoint(m: Matchup, rows: seq<ScoreRow>, dates: seq<string>, i: nat)
    requires Distinct(dates) && SetOf(dates) == KeysOf(rows) && i < |dates|
    ensures ScoresChart(m, rows, dates).player1Wins[i] == CountWinner(Restrict(rows, SetOf(dates[..i + 1])), m.player1)
    ensures ScoresChart(m, rows, dates).player2Wins[i] == CountOther(Restrict(rows, SetOf(dates[..i + 1])), m.player1)
  {
    var g := GroupByDate(rows);
    var w := Walk(g, dates, m.player1, 0, 0);
    assert ScoresChart(m, rows, dates).player1Wins == w.0 && ScoresChart(m, rows, dates).player2Wins == w.1;
    GroupByDateGroups(rows);
    WalkPoint(rows, g, dates, m.player1, 0, 0, i);
  }

  /** Extending a duplicate-free prefix by one date adds one new key. */
  lemma PrefixExtend(dates: seq<string>, i: nat)
    requires Distinct(dates) && 0 < i < |dates|
    ensures SetOf(dates[..i + 1]) == SetOf(dates[..i]) + {dates[i]}
    ensures dates[i] !in SetOf(dates[..i])
  {
    assert dates[..i + 1] == dates[..i] + [dates[i]];
  }

  /**
   * From one point to the next, each series grows by exactly that date's wins
   * for its player.
   */
  lemma ChartStep(m: Matchup, rows: seq<ScoreRow>, dates: seq<string>, i: nat)
    requires Distinct(dates) && SetOf(dates) == KeysOf(rows) && 0 < i < |dates|
    ensures var c := ScoresChart(m, rows, dates);
            c.player1Wins[i] == c.player1Wins[i - 1] + CountWinner(RowsOn(rows, dates[i]), m.player1)
            && c.player2Wins[i] == c.player2Wins[i - 1] + CountOther(RowsOn(rows, dates[i]), m.player1)
  {
    ChartPoint(m, rows, dates, i);
    ChartPoint(m, rows, dates, i - 1);
    assert dates[..i - 1 + 1] == dates[..i];
    PrefixExtend(dates, i);
    CountRestrictAdd(rows, SetOf(dates[..i]), dates[i], m.player1);
  }

  /** The last point of the chart holds each player's total number of wins. */
  lemma ChartTotals(m: Matchup, rows: seq<ScoreRow>, dates: seq<string>)
    requires Distinct(dates) && SetOf(dates) == KeysOf(rows) && |dates| > 0
    ensures ScoresChart(m, rows, dates).player1Wins[|dates| - 1] == CountWinner(rows, m.player1)
    ensures ScoresChart(m, rows, dates).player2Wins[|dates| - 1] == CountOther(rows, m.player1)
  {
    var last := |dates| - 1;
    ChartPoint(m, rows, dates, last);
    assert Restrict(rows, SetOf(dates[..last + 1])) == rows by {
      assert dates[..last + 1] == dates;
      RestrictAll(rows, SetOf(dates));
    }
  }

  /** Every score is counted once: the two final totals add up to the number of scores. */
  lemma ChartTotalsSum(m: Matchup, rows: seq<ScoreRow>, dates: seq<string>)
    requires Distinct(dates) && SetOf(dates) == KeysOf(rows) && |dates| > 0
    ensures var c := ScoresChart(m, rows, dates);
            c.player1Wins[|dates| - 1] + c.player2Wins[|dates| - 1] == |rows|
  {
    ChartTotals(m, rows, dates);
    CountPartition(rows, m.player1);
  }

  /** The final totals do not depend on the order in which the map yields its keys. */
  lemma TotalsIndependentOfOrder(m: Matchup, rows: seq<ScoreRow>, dates1: seq<string>, dates2: seq<string>)
    requires Distinct(dates1) && SetOf(dates1) == KeysOf(rows)
    requires Distinct(dates2) && SetOf(dates2) == KeysOf(rows)
    requires |rows| > 0
    ensures |dates1| == |dates2| > 0
    ensures var c1, c2 := ScoresChart(m, rows, dates1), ScoresChart(m, rows, dates2);
            c1.player1Wins[|dates1| - 1] == c2.player1Wins[|dates2| - 1]
            && c1.player2Wins[|dates1| - 1] == c2.player2Wins[|dates2| - 1]
  {
    assert rows[|rows| - 1].dateKey in KeysOf(rows);
    var c1, c2 := ScoresChart(m, rows, dates1), ScoresChart(m, rows, dates2);
    ChartTotals(m, rows, dates1);
    ChartTotals(m, rows, dates2);
  }
}

=== FILE: configuration.dfy ===
/**
 * The runtime environment of src/configuration.rs: the two-variant
 * `Environment`, its `as_str` spelling, the case-insensitive `TryFrom<String>`
 * parse, and the part of `get_configuration` that picks the environment (from
 * `APP_ENVIRONMENT`, "dev" when unset), demands `PORT` in production, and
 * names the environment's settings file.
 */
module Configuration {
  import opened Wrappers
  import opened Text

  datatype Environment = Dev | Production

  /** `Environment::as_str`: a non-empty name in lower-case ASCII letters. */
  function AsStr(e: Environment): (s: string)
    ensures |s| > 0 && forall i :: 0 <= i < |s| ==> 'a' <= s[i] <= 'z'
  {
    match e
    case Dev => "dev"
    case Production => "production"
  }

  /** The message of the parse error for an unsupported (already lower-cased) value. */
  function UnsupportedMessage(other: string): (msg: string)
    ensures |other| < |msg| && msg[..|other|] == other
  {
    other + " is not a supported environment. Use either `dev` or `production`."
  }

  /**
   * `TryFrom<String> for Environment`: the input is lower-cased, then matched
   * against the two spellings; anything else is an error naming the
   * lower-cased input.
   */
  function TryFrom(s: string): (r: Result<Environment, string>)
    ensures r.Ok? ==> AsStr(r.value) == ToLowerAscii(s)
    ensures r.Err? ==> r.error == UnsupportedMessage(ToLowerAscii(s))
  {
    var l := ToLowerAscii(s);
    if l == "dev" then Ok(Dev)
    else if l == "production" then Ok(Production)
    else Err(UnsupportedMessage(l))
  }

  /** Parsing the spelling of an environment gives the environment back. */
  lemma TryFromAsStr(e: Environment)
    ensures TryFrom(AsStr(e)) == Ok(e)
  {
    ToLowerAsciiNoUpper(AsStr(e));
  }

  /** The parse accepts exactly the spellings of the two environments, up to case. */
  lemma TryFromAccepts(s: string)
    ensures TryFrom(s).Ok? <==> exists e :: ToLowerAscii(s) == AsStr(e)
  {
    if TryFrom(s).Ok? {
      assert ToLowerAscii(s) == AsStr(TryFrom(s).value);
    }
  }

  /** The parse ignores case: an input and its lower-cased form parse alike. */
  lemma TryFromIgnoresCase(s: string)
    ensures TryFrom(s) == TryFrom(ToLowerAscii(s))
  {
    ToLowerAsciiIdempotent(s);
  }

  lemma LowerCharIs(c: char, lower: char)
    requires 'a' <= lower <= 'z'
    ensures LowerChar(c) == lower <==> c == lower || c == (lower as int - 32) as char
  {
  }

  /** The inputs read as `Dev` are the eight capitalisations of "dev". */
  lemma TryFromDev(s: string)
    ensures TryFrom(s) == Ok(Dev)
            <==> |s| == 3 && (s[0] == 'd' || s[0] == 'D') && (s[1] == 'e' || s[1] == 'E') && (s[2] == 'v' || s[2] == 'V')
  {
    var l := ToLowerAscii(s);
    if |s| == 3 {
      LowerCharIs(s[0], 'd');
      LowerCharIs(s[1], 'e');
      LowerCharIs(s[2], 'v');
      assert l == "dev" <==> l[0] == 'd' && l[1] == 'e' && l[2] == 'v';
    }
  }

  /** The inputs the parse rejects are reported with their lower-cased form first. */
  lemma TryFromErrorNamesInput(s: string)
    requires TryFrom(s).Err?
    ensures |ToLowerAscii(s)| <= |TryFrom(s).error|
    ensures TryFrom(s).error[..|s|] == ToLowerAscii(s)
  {
  }

  /** An upper-case spelling the parse accepts. */
  lemma UpperCaseDevAccepted()
    ensures TryFrom("DEV") == Ok(Dev)
  {
    TryFromDev("DEV");
  }

  /** The capitalised spelling of either environment ("Dev", "Production") is accepted. */
  lemma CapitalisedAccepted(e: Environment)
    ensures var s := AsStr(e);
            TryFrom([(s[0] as int - 32) as char] + s[1..]) == Ok(e)
  {
    var s := AsStr(e);
    var cap := (s[0] as int - 32) as char;
    ToLowerAsciiCons(cap, s[1..]);
    ToLowerAsciiNoUpper(s[1..]);
    assert LowerChar(cap) == s[0];
    assert [s[0]] + s[1..] == s;
  }

  /** Why `get_configuration` stops before reading any settings file. */
  datatype ConfigError =
    | UnsupportedEnvironment(message: string)  // "Failed to parse APP_ENVIRONMENT"
    | MissingPort                              // "Missing environment variable APP_PORT"

  /**
   * What the start of `get_configuration` settles: the environment, the name
   * of its settings file under `configuration/`, and the value exported as
   * `APP_PORT` (only in production, copied from `PORT`).
   */
  datatype Selection = Selection(env: Environment, fileName: string, appPort: Option<string>)

  /** The settings file of an environment. */
  function EnvironmentFileName(e: Environment): (name: string)
    ensures |name| > 5 && name[|name| - 5..] == ".yaml" && name[..|name| - 5] == AsStr(e)
  {
    AsStr(e) + ".yaml"
  }

  /**
   * The environment-dependent start of `get_configuration`, over the values of
   * the `APP_ENVIRONMENT` and `PORT` variables (`None` when unset). The two
   * `expect` panics become errors.
   */
  function SelectEnvironment(appEnvironment: Option<string>, port: Option<string>): (r: Result<Selection, ConfigError>)
    ensures r.Ok? ==> TryFrom(if appEnvironment.Some? then appEnvironment.value else "dev") == Ok(r.value.env)
    ensures r.Ok? ==> r.value.fileName == EnvironmentFileName(r.value.env)
    ensures r.Ok? ==> (r.value.appPort.Some? <==> r.value.env == Production)
    ensures r.Ok? && r.value.env == Production ==> r.value.appPort == port
  {
    var raw := if appEnvironment.Some? then appEnvironment.value else "dev";
    match TryFrom(raw)
    case Err(msg) => Err(UnsupportedEnvironment(msg))
    case Ok(env) =>
      match env
      case Dev => Ok(Selection(Dev, EnvironmentFileName(Dev), None))
      case Production =>
        if port.None? then Err(MissingPort)
        else Ok(Selection(Production, EnvironmentFileName(Production), port))
  }

  /** With `APP_ENVIRONMENT` unset the application runs as `Dev` from "dev.yaml", whatever `PORT` holds. */
  lemma DefaultIsDev(port: Option<string>)
    ensures SelectEnvironment(None, port) == Ok(Selection(Dev, "dev.yaml", None))
  {
    TryFromAsStr(Dev);
    assert EnvironmentFileName(Dev) == "dev" + ".yaml" == "dev.yaml";
  }

  /** The selection fails exactly for an unsupported name, or for production without `PORT`. */
  lemma SelectEnvironmentFails(appEnvironment: Option<string>, port: Option<string>)
    ensures var raw := if appEnvironment.Some? then appEnvironment.value else "dev";
            SelectEnvironment(appEnvironment, port).Err?
            <==> TryFrom(raw).Err? || (TryFrom(raw) == Ok(Production) && port.None?)
  {
  }
}

=== FILE: dates.dfy ===
/**
 * Go's `time.Parse("2006-01-02", s)` and `t.Format("2006-01-02")` restricted
 * to what the layout reads: a four-digit year, a two-digit month in 1..12 and
 * a two-digit day that exists in that month (leap years included), separated
 * by '-', and nothing after the day.
 */
module Dates {
  import opened Wrappers
  import opened Decimal

  datatype Date = Date(year: int, month: int, day: int)

  predicate IsLeapYear(y: int)
  {
    y % 4 == 0 && (y % 100 != 0 || y % 400 == 0)
  }

  /** Number of days of `month` (1..12) in `year`. */
  function DaysIn(month: int, year: int): (n: int)
    requires 1 <= month <= 12
    ensures 28 <= n <= 31
    ensures n == 29 <==> month == 2 && IsLeapYear(year)
  {
    if month == 2 then (if IsLeapYear(year) then 29 else 28)
    else if month == 4 || month == 6 || month == 9 || month == 11 then 30
    else 31
  }

  /** Fields the layout can spell with its fixed digit counts, whether or not the day exists. */
  predicate Spellable(d: Date)
  {
    0 <= d.year <= 9999 && 1 <= d.month <= 12 && 1 <= d.day <= 31
  }

  /** A calendar date the layout can spell: year 0000 to 9999. */
  predicate ValidDate(d: Date)
  {
    0 <= d.year <= 9999 && 1 <= d.month <= 12 && 1 <= d.day <= DaysIn(d.month, d.year)
  }

  /** The fixed shape of the layout: digits at 0-3, 5-6 and 8-9, '-' at 4 and 7. */
  predicate HasDateShape(s: string)
  {
    |s| == 10
    && IsDigit(s[0]) && IsDigit(s[1]) && IsDigit(s[2]) && IsDigit(s[3])
    && s[4] == '-'
    && IsDigit(s[5]) && IsDigit(s[6])
    && s[7] == '-'
    && IsDigit(s[8]) && IsDigit(s[9])
  }

  function TwoDigits(a: char, b: char): nat
    requires IsDigit(a) && IsDigit(b)
  {
    DigitValue(a) * 10 + DigitValue(b)
  }

  /**
   * `time.Parse("2006-01-02", s)`: `Some(date)` exactly when Go returns no
   * error. Go rejects a month outside 1..12 and a day outside the month.
   */
  function ParseDate(s: string): (r: Option<Date>)
    ensures r.Some? ==> ValidDate(r.value) && |s| == 10
  {
    if !HasDateShape(s) then None
    else
      var year := DigitValue(s[0]) * 1000 + DigitValue(s[1]) * 100 + DigitValue(s[2]) * 10 + DigitValue(s[3]);
      var month := TwoDigits(s[5], s[6]);
      var day := TwoDigits(s[8], s[9]);
      if month < 1 || month > 12 then None
      else if day < 1 || day > DaysIn(month, year) then None
      else Some(Date(year, month, day))
  }

  /**
   * `t.Format("2006-01-02")` for a date the layout can spell; also the text a
   * user would type for a day that does not exist, such as a 29th of February.
   */
  function FormatDate(d: Date): (s: string)
    requires Spellable(d)
    ensures HasDateShape(s)
  {
    [DigitChar(d.year / 1000), DigitChar(d.year / 100 % 10), DigitChar(d.year / 10 % 10), DigitChar(d.year % 10),
     '-', DigitChar(d.month / 10), DigitChar(d.month % 10),
     '-', DigitChar(d.day / 10), DigitChar(d.day % 10)]
  }

  lemma FourDigitSplit(y: int)
    requires 0 <= y <= 9999
    ensures (y / 1000) * 1000 + (y / 100 % 10) * 100 + (y / 10 % 10) * 10 + y % 10 == y
  {
  }

  lemma DivModUnique(y: int, q: int, r: int, k: int)
    requires 0 < k && 0 <= r < k && y == q * k + r
    ensures y / k == q && y % k == r
  {
    var q', r' := y / k, y % k;
    assert (q - q') * k == r' - r;
    if q > q' {
      MulAtLeast(q - q', k);
    } else if q < q' {
      MulAtLeast(q' - q, k);
    }
  }

  lemma MulAtLeast(n: int, k: int)
    requires n >= 1 && k > 0
    ensures n * k >= k
  {
  }

  lemma FourDigitJoin(a: nat, b: nat, c: nat, d: nat)
    requires a < 10 && b < 10 && c < 10 && d < 10
    ensures var y := a * 1000 + b * 100 + c * 10 + d;
            y / 1000 == a && y / 100 % 10 == b && y / 10 % 10 == c && y % 10 == d
  {
    var y := a * 1000 + b * 100 + c * 10 + d;
    DivModUnique(y, a, b * 100 + c * 10 + d, 1000);
    DivModUnique(y, a * 10 + b, c * 10 + d, 100);
    DivModUnique(a * 10 + b, a, b, 10);
    DivModUnique(y, a * 100 + b * 10 + c, d, 10);
    DivModUnique(a * 100 + b * 10 + c, a * 10 + b, c, 10);
  }

  lemma DigitCharValue(c: char)
    requires IsDigit(c)
    ensures DigitChar(DigitValue(c)) == c
  {
  }

  /** Formatting a valid date and parsing it back gives the date. */
  lemma ParseFormatDate(d: Date)
    requires ValidDate(d)
    ensures ParseDate(FormatDate(d)) == Some(d)
  {
    FourDigitSplit(d.year);
  }

  /** Every accepted string is the formatting of the date it parses to. */
  lemma FormatParseDate(s: string)
    requires ParseDate(s).Some?
    ensures FormatDate(ParseDate(s).value) == s
  {
    var d := ParseDate(s).value;
    FourDigitJoin(DigitValue(s[0]), DigitValue(s[1]), DigitValue(s[2]), DigitValue(s[3]));
    DigitCharValue(s[0]);
    DigitCharValue(s[1]);
    DigitCharValue(s[2]);
    DigitCharValue(s[3]);
    DigitCharValue(s[5]);
    DigitCharValue(s[6]);
    DigitCharValue(s[8]);
    DigitCharValue(s[9]);
    var f := FormatDate(d);
    assert f[0] == s[0] && f[1] == s[1] && f[2] == s[2] && f[3] == s[3];
    assert f[5] == s[5] && f[6] == s[6] && f[8] == s[8] && f[9] == s[9];
  }

  /** "YYYY-02-29" is accepted exactly in leap years. */
  lemma LeapDay(year: int)
    requires 0 <= year <= 9999
    ensures ParseDate(FormatDate(Date(year, 2, 29))).Some? <==> IsLeapYear(year)
    ensures IsLeapYear(year) <==> ValidDate(Date(year, 2, 29))
  {
    var d := Date(year, 2, 29);
    if IsLeapYear(year) {
      ParseFormatDate(d);
    } else {
      var s := FormatDate(d);
      FourDigitSplit(year);
      assert TwoDigits(s[5], s[6]) == 2 && TwoDigits(s[8], s[9]) == 29;
    }
  }
}

=== FILE: decimal.dfy ===
/**
 * Go's `strconv.ParseInt(s, 10, 16)` as the score handlers call it, and the
 * decimal rendering that inverts it.
 *
 * With an explicit base of 10 Go accepts an optional '+' or '-' followed by
 * one or more decimal digits (no base prefix, no underscores), and reports a
 * range error for values outside the signed 16-bit range.
 */
module Decimal {
  import opened Wrappers

  const MinInt16: int := -32768
  const MaxInt16: int := 32767

  predicate IsDigit(c: char)
  {
    '0' <= c <= '9'
  }

  predicate AllDigits(s: string)
  {
    forall i :: 0 <= i < |s| ==> IsDigit(s[i])
  }

  function DigitValue(c: char): nat
    requires IsDigit(c)
  {
    c as int - '0' as int
  }

  function DigitChar(d: nat): (c: char)
    requires d < 10
    ensures IsDigit(c) && DigitValue(c) == d
  {
    ('0' as int + d) as char
  }

  /** Value of a string of decimal digits, most significant first. */
  function DigitsValue(s: string): nat
    requires AllDigits(s)
  {
    if |s| == 0 then 0
    else DigitsValue(s[..|s| - 1]) * 10 + DigitValue(s[|s| - 1])
  }

  /**
   * `strconv.ParseInt(s, 10, 16)`: `Some(v)` exactly when Go returns `v` with
   * a nil error. An unsigned magnitude of 2^15 is accepted only after '-';
   * magnitudes past that are range errors (for magnitudes past 2^64 the
   * unsigned parse saturates and the same range check rejects them).
   */
  function ParseInt16(s: string): (r: Option<int>)
    ensures r.Some? ==> MinInt16 <= r.value <= MaxInt16
    ensures r.Some? ==> |s| > 0
  {
    if |s| == 0 then None
    else
      var neg := s[0] == '-';
      var body := if s[0] == '+' || s[0] == '-' then s[1..] else s;
      if |body| == 0 || !AllDigits(body) then None
      else
        var un: int := DigitsValue(body);
        if !neg && un >= 32768 then None
        else if neg && un > 32768 then None
        else if neg then Some(-un)
        else Some(un)
  }

  /** Decimal digits of `n`, without leading zeros. */
  function FormatNat(n: nat): (s: string)
    ensures |s| > 0 && AllDigits(s)
    ensures DigitsValue(s) == n
  {
    if n < 10 then [DigitChar(n)]
    else
      var init := FormatNat(n / 10);
      var s := init + [DigitChar(n % 10)];
      assert s[..|s| - 1] == init;
      s
  }

  /** The decimal spelling of `v`, with a leading '-' when negative; the round-trip partner of `ParseInt16`. */
  function FormatInt(v: int): (s: string)
    ensures |s| > 0 && ':' !in s
  {
    if v < 0 then "-" + FormatNat(-v) else FormatNat(v)
  }

  /** Rendering a 16-bit value and parsing it back gives the value. */
  lemma ParseFormatInt(v: int)
    requires MinInt16 <= v <= MaxInt16
    ensures ParseInt16(FormatInt(v)) == Some(v)
  {
    var s := FormatInt(v);
    if v < 0 {
      assert s[1..] == FormatNat(-v);
    } else {
      assert IsDigit(s[0]);
    }
  }

  /**
   * What the parser accepts, stated without the parser: an optional sign,
   * at least one digit, and a value in the signed 16-bit range.
   */
  lemma {:induction false} ParseInt16Accepts(sign: string, digits: string)
    requires sign == "" || sign == "+" || sign == "-"
    requires |digits| > 0 && AllDigits(digits)
    ensures var v: int := if sign == "-" then 0 - DigitsValue(digits) else DigitsValue(digits) as int;
            ParseInt16(sign + digits) == if MinInt16 <= v <= MaxInt16 then Some(v) else None
  {
    var s := sign + digits;
    if sign == "" {
      assert s == digits;
      assert IsDigit(s[0]);
    } else {
      assert s[1..] == digits;
    }
  }

  /** Every string the parser accepts has that shape. */
  lemma ParseInt16Shape(s: string)
    requires ParseInt16(s).Some?
    ensures exists sign, digits :: (sign == "" || sign == "+" || sign == "-")
                                 && |digits| > 0 && AllDigits(digits) && s == sign + digits
  {
    if s[0] == '+' || s[0] == '-' {
      assert s == [s[0]] + s[1..];
      assert s == s[..1] + s[1..];
    } else {
      assert s == "" + s;
    }
  }
}

=== FILE: post_batch.dfy ===
/**
 * `parse_match_scores` of src/routes/scores/post_batch.rs: the raw text is cut
 * at every '\n' (no trimming, no skipping of blank segments), each segment is
 * handed to the score-form constructor together with the matchup id, and the
 * first rejected segment aborts the whole call with a context-wrapped error.
 *
 * The constructor `MatchScoreForm::new` is not part of this model; it is a
 * parameter `parse` of the combinator, and properties that depend on it carry
 * their assumptions about it as preconditions.
 */
module PostBatch {
  import opened Wrappers
  import opened Text

  /** The context the combinator attaches to the constructor's error. */
  const FailedToParse: string := "Failed to parse match score"

  /** An error with one layer of context, as `anyhow::Context::context` builds it. */
  datatype BatchError<E> = WithContext(context: string, cause: E)

  /** Index of the first segment the constructor rejects, or `|segs|` when it accepts all. */
  function FirstRejected<Id, F, E>(id: Id, segs: seq<string>, parse: (Id, string) -> Result<F, E>): (k: nat)
    ensures k <= |segs|
    ensures forall j :: 0 <= j < k ==> parse(id, segs[j]).Ok?
    ensures k < |segs| ==> parse(id, segs[k]).Err?
  {
    if |segs| == 0 then 0
    else if parse(id, segs[0]).Err? then 0
    else 1 + FirstRejected(id, segs[1..], parse)
  }

  /** The loop over the segments: push each parsed form, or return at the first error. */
  function ParseSegments<Id, F, E>(id: Id, segs: seq<string>, parse: (Id, string) -> Result<F, E>)
    : (r: Result<seq<F>, BatchError<E>>)
    ensures r.Ok? <==> forall i :: 0 <= i < |segs| ==> parse(id, segs[i]).Ok?
    ensures r.Ok? ==> |r.value| == |segs|
                      && forall i :: 0 <= i < |segs| ==> r.value[i] == parse(id, segs[i]).value
    ensures r.Err? ==> var k := FirstRejected(id, segs, parse);
                       k < |segs| && r.error == WithContext(FailedToParse, parse(id, segs[k]).error)
  {
    if |segs| == 0 then Ok([])
    else
      var head := parse(id, segs[0]);
      if head.Err? then Err(WithContext(FailedToParse, head.error))
      else
        var rest := ParseSegments(id, segs[1..], parse);
        if rest.Err? then
          assert parse(id, segs[1..][FirstRejected(id, segs[1..], parse)]).Err?;
          Err(rest.error)
        else
          assert forall i :: 1 <= i < |segs| ==> segs[i] == segs[1..][i - 1];
          Ok([head.value] + rest.value)
  }

  /** `parse_match_scores(matchup_id, raw_match_scores)`. */
  function ParseMatchScores<Id, F, E>(id: Id, raw: string, parse: (Id, string) -> Result<F, E>)
    : (r: Result<seq<F>, BatchError<E>>)
    ensures r.Ok? ==> |r.value| == CountChar(raw, '\n') + 1
    ensures r.Err? ==> r.error.context == FailedToParse
  {
    ParseSegments(id, Split(raw, '\n'), parse)
  }

  /**
   * When the constructor tags every form it builds with the id it was given,
   * every form of a successful batch carries the batch's id.
   */
  lemma AllTagged<Id, F, E>(id: Id, raw: string, parse: (Id, string) -> Result<F, E>, tag: F -> Id)
    requires forall s :: parse(id, s).Ok? ==> tag(parse(id, s).value) == id
    ensures var r := ParseMatchScores(id, raw, parse);
            r.Ok? ==> forall i :: 0 <= i < |r.value| ==> tag(r.value[i]) == id
  {
  }

  /** One rejected segment anywhere rejects the whole batch. */
  lemma OneBadSegmentRejects<Id, F, E>(id: Id, before: seq<string>, bad: string, after: seq<string>,
                                       parse: (Id, string) -> Result<F, E>)
    requires parse(id, bad).Err?
    ensures ParseSegments(id, before + [bad] + after, parse).Err?
  {
    assert (before + [bad] + after)[|before|] == bad;
  }

  /** Segments are passed on untrimmed, so the empty segment after a final '\n' reaches the constructor. */
  lemma TrailingNewlineReachesParser<Id, F, E>(id: Id, raw: string, parse: (Id, string) -> Result<F, E>)
    requires parse(id, "").Err?
    ensures ParseMatchScores(id, raw + "\n", parse).Err?
  {
    SplitTrailingSeparator(raw, '\n');
    OneBadSegmentRejects(id, Split(raw, '\n'), "", [], parse);
    assert Split(raw, '\n') + [""] + [] == Split(raw, '\n') + [""];
  }

  /** The one-line input of the module's first unit test. */
  const OneLine: string := "2022-02-22 P1 16:1"

  /**
   * The first unit test: a one-line input the constructor accepts gives one
   * form, tagged with the supplied id.
   */
  lemma SingleScoreParses<Id, F, E>(id: Id, parse: (Id, string) -> Result<F, E>, tag: F -> Id)
    requires parse(id, OneLine).Ok? && tag(parse(id, OneLine).value) == id
    ensures var r := ParseMatchScores(id, OneLine, parse);
            r.Ok? && |r.value| == 1 && tag(r.value[0]) == id
  {
    SplitNoSeparator(OneLine, '\n');
  }

  /** Two accepted newline-free lines joined by '\n' give two forms, in order. */
  lemma TwoLinesParse<Id, F, E>(id: Id, line1: string, line2: string, parse: (Id, string) -> Result<F, E>)
    requires '\n' !in line1 && '\n' !in line2
    requires parse(id, line1).Ok? && parse(id, line2).Ok?
    ensures var r := ParseMatchScores(id, line1 + "\n" + line2, parse);
            r.Ok? && r.value == [parse(id, line1).value, parse(id, line2).value]
  {
    var segs := [line1, line2];
    SplitAfterPiece(line1, line2, '\n');
    SplitNoSeparator(line2, '\n');
    assert Split(line1 + "\n" + line2, '\n') == segs;
  }

  /**
   * The second unit test: two copies of that line joined by '\n' give two
   * forms, both tagged with the supplied id.
   */
  lemma MultipleScoresParse<Id, F, E>(id: Id, parse: (Id, string) -> Result<F, E>, tag: F -> Id)
    requires parse(id, OneLine).Ok? && tag(parse(id, OneLine).value) == id
    ensures var r := ParseMatchScores(id, OneLine + "\n" + OneLine, parse);
            r.Ok? && |r.value| == 2 && tag(r.value[0]) == id && tag(r.value[1]) == id
  {
    TwoLinesParse(id, OneLine, OneLine, parse);
  }
}

=== FILE: scenarios.dfy ===
/**
 * Concrete submissions from the handlers' tests and documentation, worked
 * through the model.
 */
module Scenarios {
  import opened Wrappers
  import opened Text
  import opened Decimal
  import opened Dates
  import opened Scores

  /** A score with no ':' is a format error, once the winner has been accepted. */
  lemma ScoreWithoutColon(m: Matchup, date: string)
    ensures ParseSingle(m, m.player1, "invalid", date) == Err(InvalidScoreFormat)
  {
    CountCharAbsent("invalid", ':');
  }

  /**
   * The "Empty score" case of the end-to-end test: an empty score never
   * reaches the score check, because binding rejects the empty required field
   * before the matchup is even looked up.
   */
  lemma EmptyScoreFailsBinding(id: MatchupId, winner: string, date: string, found: Option<Matchup>)
    requires id != NilId && |winner| > 0 && |date| > 0
    requires found.Some? ==> found.value.id == id
    ensures ScoresSingle(id, winner, "", date, found) == Err(InvalidForm([ScoreField]))
  {
    var empty: string := [];
    assert |empty| == 0;
    assert MissingSingle(id, winner, empty, date) == [ScoreField];
  }

  /** An empty batch text is a binding error, not an empty batch. */
  lemma EmptyBatchFailsBinding(id: MatchupId, found: Option<Matchup>)
    requires id != NilId
    requires found.Some? ==> found.value.id == id
    ensures ScoresBatch(id, "", found) == Err(InvalidForm([RawListField]))
  {
    var empty: string := [];
    assert MissingBatch(id, empty) == [RawListField];
  }

  /** The winner check comes first: an unknown winner is reported even when the score and date are bad too. */
  lemma UnknownWinnerFirst(m: Matchup)
    requires m.player1 != "INVALID" && m.player2 != "INVALID"
    ensures ParseSingle(m, "INVALID", "invalid", "not-a-date") == Err(PlayerNotInMatch)
  {
  }

  /** A date that is not "YYYY-MM-DD" is reported after a good score. */
  lemma NotADate(m: Matchup)
    ensures ParseSingle(m, m.player1, "2:1", "not-a-date") == Err(InvalidDateFormat)
  {
    SmallScores();
    assert !HasDateShape("not-a-date");
  }

  /** A sign is part of Go's integer syntax, so "-1:2" is stored as a 2 to -1 result. */
  lemma NegativeScoreAccepted(m: Matchup, date: string)
    requires ParseDate(date).Some?
    ensures ParseScore("-1:2") == Ok((2, -1))
    ensures ParseSingle(m, m.player1, "-1:2", date) == Ok(Entry(m.id, m.player1, 2, -1, ParseDate(date).value))
  {
    assert FormatInt(-1) == "-1" && FormatInt(2) == "2";
    ParseScoreNormalises(-1, 2);
    assert FormatInt(-1) + ":" + FormatInt(2) == "-1:2";
  }

  /** A half past the 16-bit range is reported against the half it occurs in. */
  lemma WinnerScoreOutOfRange(m: Matchup, date: string)
    ensures ParseSingle(m, m.player1, "32768:1", date) == Err(InvalidWinnerScore)
  {
    var a, b := "32768", "1";
    assert ParseInt16(a).None? by {
      assert FormatNat(32768) == a;
      ParseInt16Accepts("", a);
      assert "" + a == a;
    }
    assert ParseScore("32768:1") == Err(InvalidWinnerScore) by {
      ParseScoreHalves(a, b);
      assert a + ":" + b == "32768:1";
    }
  }

  /** Every accepted date is one ten-character word of digits and '-'. */
  lemma DateIsWord(date: string)
    requires ParseDate(date).Some?
    ensures |date| == 10 && NoSpace(date) && '\n' !in date
  {
    FormatParseDate(date);
    assert HasDateShape(date);
  }

  /** A line made of space-free words holds no line break. */
  lemma NewlineFree(date: string, winner: string, score: string)
    requires NoSpace(date) && NoSpace(winner) && NoSpace(score)
    ensures '\n' !in date + " " + winner + " " + score
  {
    var line := date + " " + winner + " " + score;
    assert forall i :: 0 <= i < |line| && line[i] == '\n' ==> IsSpace(line[i]);
  }

  /** "2:1" and "3:2" parse to the pairs they spell. */
  lemma SmallScores()
    ensures ParseScore("2:1") == Ok((2, 1)) && ParseScore("3:2") == Ok((3, 2))
  {
    assert FormatInt(1) == "1" && FormatInt(2) == "2" && FormatInt(3) == "3";
    ParseScoreNormalises(2, 1);
    ParseScoreNormalises(3, 2);
    assert FormatInt(2) + ":" + FormatInt(1) == "2:1";
    assert FormatInt(3) + ":" + FormatInt(2) == "3:2";
  }

  /** A line with two words is not a score line. */
  lemma TwoWordLine(m: Matchup)
    ensures ParseLine(m, "invalid line") == None
    ensures '\n' !in "invalid line"
  {
    var l := "invalid line";
    assert forall i :: 0 <= i < |l| ==> l[i] != '\n';
    var ws := ["invalid", "line"];
    assert Unwords(ws) == "invalid line" by {
      assert ws[1..] == ["line"];
    }
    FieldsUnwords(ws);
    LineAgreesWithSingle(m, "invalid line");
  }

  /** One line "<date> <winner> <score>" of a batch whose parts all pass. */
  lemma GoodLine(m: Matchup, date: string, winner: string, score: string, w: int, l: int)
    requires ParseDate(date).Some? && InMatch(m, winner) && |winner| > 0 && NoSpace(winner)
    requires ParseScore(score) == Ok((w, l)) && |score| > 0 && NoSpace(score)
    ensures ParseLine(m, date + " " + winner + " " + score) == Some(Entry(m.id, winner, w, l, ParseDate(date).value))
  {
    var line := date + " " + winner + " " + score;
    var single := ParseSingle(m, winner, score, date);
    assert single == Ok(Entry(m.id, winner, w, l, ParseDate(date).value));
    assert ParseLine(m, line) == ToOption(single) by {
      DateIsWord(date);
      LineOfWords(m, date, winner, score);
    }
  }

  /** Three newline-free lines joined by '\n' split back into those lines. */
  lemma SplitThree(line1: string, line2: string, line3: string)
    requires '\n' !in line1 && '\n' !in line2 && '\n' !in line3
    ensures Split(Join([line1, line2, line3], '\n'), '\n') == [line1, line2, line3]
  {
    var lines := [line1, line2, line3];
    assert forall i :: 0 <= i < |lines| ==> '\n' !in lines[i];
    SplitJoin(lines, '\n');
  }

  /** A batch of three lines whose middle one is rejected stores the outer two, in order. */
  lemma GoodBadGood(m: Matchup, line1: string, bad: string, line3: string)
    requires '\n' !in line1 && '\n' !in bad && '\n' !in line3
    requires ParseLine(m, line1).Some? && ParseLine(m, bad).None? && ParseLine(m, line3).Some?
    ensures ParseBatch(m, Join([line1, bad, line3], '\n')) == [ParseLine(m, line1).value, ParseLine(m, line3).value]
  {
    SplitThree(line1, bad, line3);
    BatchIgnoresCrlf(m, Join([line1, bad, line3], '\n'));
    FilterMapSkipMiddle((line: string) => ParseLine(m, line), line1, bad, line3);
  }

  /** Two good lines around a two-word line: the good lines are stored, in order. */
  lemma GoodLinesAroundBadOne(m: Matchup, date1: string, winner1: string, score1: string,
                              date2: string, winner2: string, score2: string)
    requires ParseDate(date1).Some? && InMatch(m, winner1) && |winner1| > 0 && NoSpace(winner1)
    requires ParseScore(score1).Ok? && |score1| > 0 && NoSpace(score1)
    requires ParseDate(date2).Some? && InMatch(m, winner2) && |winner2| > 0 && NoSpace(winner2)
    requires ParseScore(score2).Ok? && |score2| > 0 && NoSpace(score2)
    ensures var lines := [date1 + " " + winner1 + " " + score1, "invalid line", date2 + " " + winner2 + " " + score2];
            ParseBatch(m, Join(lines, '\n'))
            == [Entry(m.id, winner1, ParseScore(score1).value.0, ParseScore(score1).value.1, ParseDate(date1).value),
                Entry(m.id, winner2, ParseScore(score2).value.0, ParseScore(score2).value.1, ParseDate(date2).value)]
  {
    var line1 := date1 + " " + winner1 + " " + score1;
    var line3 := date2 + " " + winner2 + " " + score2;
    DateIsWord(date1);
    DateIsWord(date2);
    TwoWordLine(m);
    GoodLine(m, date1, winner1, score1, ParseScore(score1).value.0, ParseScore(score1).value.1);
    GoodLine(m, date2, winner2, score2, ParseScore(score2).value.0, ParseScore(score2).value.1);
    NewlineFree(date1, winner1, score1);
    NewlineFree(date2, winner2, score2);
    GoodBadGood(m, line1, "invalid line", line3);
  }

  /**
   * The mixed batch of the handlers' integration test: a line that is not a
   * score between two good ones is skipped, and the two good lines are stored
   * in order.
   */
  lemma MixedBatch(m: Matchup, date1: string, date2: string)
    requires ParseDate(date1).Some? && ParseDate(date2).Some?
    requires |m.player1| > 0 && NoSpace(m.player1) && |m.player2| > 0 && NoSpace(m.player2)
    ensures var lines := [date1 + " " + m.player1 + " " + "2:1", "invalid line", date2 + " " + m.player2 + " " + "3:2"];
            ParseBatch(m, Join(lines, '\n'))
            == [Entry(m.id, m.player1, 2, 1, ParseDate(date1).value), Entry(m.id, m.player2, 3, 2, ParseDate(date2).value)]
  {
    SmallScores();
    var s1, s2 := "2:1", "3:2";
    assert NoSpace(s1) && NoSpace(s2) by {
      assert forall i :: 0 <= i < |s1| ==> !IsSpace(s1[i]);
      assert forall i :: 0 <= i < |s2| ==> !IsSpace(s2[i]);
    }
    GoodLinesAroundBadOne(m, date1, m.player1, s1, date2, m.player2, s2);
  }
}

=== FILE: scores.dfy ===
/**
 * The score-ingestion logic of the Go handlers in internal/handlers/scores.go:
 * `ScoresSingle` validates one submitted result and either stores one record
 * or redirects with a specific error message; `ScoresBatch` reads free-text
 * lines "<YYYY-MM-DD> <winner> <a>:<b>", stores every line that passes the
 * same checks and silently skips the others.
 *
 * The matchup lookup and the insert are the database's: the looked-up matchup
 * is a parameter (`None` when the lookup failed) and a stored record is an
 * element of the returned sequence. The generated game id and the creation
 * timestamp are not part of the record.
 */
module Scores {
  import opened Wrappers
  import opened Text
  import opened Decimal
  import opened Dates

  /** The opaque identifier (a UUID) of a matchup. */
  type MatchupId = nat

  /** A registered pairing of two players. */
  datatype Matchup = Matchup(id: MatchupId, player1: string, player2: string)

  /** One stored game result, as the handlers pass it to `CreateScore`. */
  datatype Entry = Entry(matchId: MatchupId, winner: string, winnerScore: int, loserScore: int, playedAt: Date)

  /** The nil UUID, which the `required` rule rejects like a missing id. */
  const NilId: MatchupId := 0

  /** The form fields the two handlers mark `binding:"required"`. */
  datatype FormField = MatchupIdField | WinnerField | ScoreField | PlayedAtField | RawListField

  /**
   * Why a handler redirects with an error: either the form did not bind (the
   * required fields left empty, in declaration order; the validator's text is
   * not part of this model), or one of the handler's own checks failed.
   */
  datatype Rejection = InvalidForm(missing: seq<FormField>) | Reported(error: SingleError)

  /** The reasons `ScoresSingle` redirects with an error, in the order it checks them. */
  datatype SingleError =
    | MatchNotFound
    | PlayerNotInMatch
    | InvalidScoreFormat
    | InvalidWinnerScore
    | InvalidLoserScore
    | InvalidDateFormat

  /**
   * The error text the handler puts into the redirect's query string; the
   * errors about the submitted text itself are the "Invalid ..." ones.
   */
  function Message(e: SingleError): (msg: string)
    ensures |msg| > 8
    ensures e !in {MatchNotFound, PlayerNotInMatch} ==> msg[..8] == "Invalid "
    ensures msg[0] == 'I' <==> e !in {MatchNotFound, PlayerNotInMatch}
  {
    match e
    case MatchNotFound => "Match not found"
    case PlayerNotInMatch => "Player not in match"
    case InvalidScoreFormat => "Invalid score format"
    case InvalidWinnerScore => "Invalid winner score"
    case InvalidLoserScore => "Invalid loser score"
    case InvalidDateFormat => "Invalid date format"
  }

  /** Distinct errors are reported with distinct messages. */
  lemma MessageInjective(e1: SingleError, e2: SingleError)
    requires Message(e1) == Message(e2)
    ensures e1 == e2
  {
    assert Message(e1)[8] == Message(e2)[8];
  }

  /** The winner named in a submission is one of the matchup's two players. */
  predicate InMatch(m: Matchup, winner: string)
  {
    winner == m.player1 || winner == m.player2
  }

  /**
   * What every stored record satisfies: it belongs to the matchup, its winner
   * is one of the two players, and its scores are ordered 16-bit values.
   */
  predicate Storable(m: Matchup, e: Entry)
  {
    e.matchId == m.id && InMatch(m, e.winner)
    && MinInt16 <= e.loserScore <= e.winnerScore <= MaxInt16
    && ValidDate(e.playedAt)
  }

  function Max(a: int, b: int): int { if a >= b then a else b }
  function Min(a: int, b: int): int { if a >= b then b else a }

  /**
   * "Make sure winner score is higher": the two parsed halves, swapped when
   * the first is not larger.
   */
  function Normalise(first: int, second: int): (r: (int, int))
    ensures r.0 >= r.1
    ensures multiset{r.0, r.1} == multiset{first, second}
    ensures r == (Max(first, second), Min(first, second))
  {
    if first <= second then (second, first) else (first, second)
  }

  /**
   * The score check shared by both handlers: split on ':' into exactly two
   * halves, parse each as a signed 16-bit decimal, then order the pair.
   */
  function ParseScore(score: string): (r: Result<(int, int), SingleError>)
    ensures r.Ok? ==> MinInt16 <= r.value.1 <= r.value.0 <= MaxInt16
    ensures r.Ok? ==> CountChar(score, ':') == 1
    ensures CountChar(score, ':') != 1 ==> r == Err(InvalidScoreFormat)
    ensures r.Err? ==> r.error in {InvalidScoreFormat, InvalidWinnerScore, InvalidLoserScore}
  {
    var parts := Split(score, ':');
    if |parts| != 2 then Err(InvalidScoreFormat)
    else
      var first := ParseInt16(parts[0]);
      if first.None? then Err(InvalidWinnerScore)
      else
        var second := ParseInt16(parts[1]);
        if second.None? then Err(InvalidLoserScore)
        else Ok(Normalise(first.value, second.value))
  }

  /**
   * The score check stated without splitting: for a score written as two
   * colon-free halves around one ':', the first half is checked first and the
   * larger value becomes the winner's.
   */
  lemma ParseScoreHalves(a: string, b: string)
    requires ':' !in a && ':' !in b
    ensures ParseScore(a + ":" + b) ==
              if ParseInt16(a).None? then Err(InvalidWinnerScore)
              else if ParseInt16(b).None? then Err(InvalidLoserScore)
              else Ok((Max(ParseInt16(a).value, ParseInt16(b).value), Min(ParseInt16(a).value, ParseInt16(b).value)))
  {
    assert a + ":" + b == Join([a, b], ':');
    SplitJoin([a, b], ':');
  }

  /**
   * Writing any two 16-bit values as "x:y" is accepted, and parsing yields
   * the larger value first: parsing normalises rather than round-trips.
   */
  lemma ParseScoreNormalises(x: int, y: int)
    requires MinInt16 <= x <= MaxInt16 && MinInt16 <= y <= MaxInt16
    ensures ParseScore(FormatInt(x) + ":" + FormatInt(y)) == Ok((Max(x, y), Min(x, y)))
  {
    ParseFormatInt(x);
    ParseFormatInt(y);
    ParseScoreHalves(FormatInt(x), FormatInt(y));
  }

  /** Writing back a parsed score as "winner:loser" and parsing again changes nothing. */
  lemma ParseScoreIdempotent(score: string)
    requires ParseScore(score).Ok?
    ensures var (w, l) := ParseScore(score).value;
            ParseScore(FormatInt(w) + ":" + FormatInt(l)) == ParseScore(score)
  {
    var (w, l) := ParseScore(score).value;
    ParseScoreNormalises(w, l);
  }

  /**
   * `ScoresSingle` after the matchup lookup: winner membership, then the
   * score's shape, then each half, then the date, in that order.
   */
  function ParseSingle(m: Matchup, winner: string, score: string, date: string): (r: Result<Entry, SingleError>)
    ensures !InMatch(m, winner) ==> r == Err(PlayerNotInMatch)
    ensures InMatch(m, winner) && CountChar(score, ':') != 1 ==> r == Err(InvalidScoreFormat)
    ensures InMatch(m, winner) && ParseScore(score).Err? ==> r == Err(ParseScore(score).error)
    ensures InMatch(m, winner) && ParseScore(score).Ok? && ParseDate(date).None? ==> r == Err(InvalidDateFormat)
    ensures r == Err(InvalidDateFormat) ==> ParseScore(score).Ok? && ParseDate(date).None?
    ensures r.Ok? <==> InMatch(m, winner) && ParseScore(score).Ok? && ParseDate(date).Some?
    ensures r.Ok? ==> Storable(m, r.value) && r.value.winner == winner
    ensures r.Ok? ==> FormatDate(r.value.playedAt) == date
  {
    if !InMatch(m, winner) then Err(PlayerNotInMatch)
    else
      var sc := ParseScore(score);
      if sc.Err? then Err(sc.error)
      else
        var d := ParseDate(date);
        if d.None? then Err(InvalidDateFormat)
        else
          FormatParseDate(date);
          Ok(Entry(m.id, winner, sc.value.0, sc.value.1, d.value))
  }

  /** The required fields of a single-score form that are empty, in declaration order. */
  function MissingSingle(id: MatchupId, winner: string, score: string, date: string): (missing: seq<FormField>)
    ensures |missing| == 0 <==> id != NilId && |winner| > 0 && |score| > 0 && |date| > 0
    ensures MatchupIdField in missing <==> id == NilId
    ensures WinnerField in missing <==> |winner| == 0
    ensures ScoreField in missing <==> |score| == 0
    ensures PlayedAtField in missing <==> |date| == 0
    ensures RawListField !in missing
  {
    (if id == NilId then [MatchupIdField] else [])
    + (if |winner| == 0 then [WinnerField] else [])
    + (if |score| == 0 then [ScoreField] else [])
    + (if |date| == 0 then [PlayedAtField] else [])
  }

  /**
   * `ScoresSingle`: the form is bound first (every field required), then the
   * matchup `id` is looked up (`found` is the lookup's answer, a matchup
   * carrying that id), then the submission is checked.
   */
  function ScoresSingle(id: MatchupId, winner: string, score: string, date: string, found: Option<Matchup>)
    : (r: Result<Entry, Rejection>)
    requires found.Some? ==> found.value.id == id
    ensures |MissingSingle(id, winner, score, date)| > 0 ==> r == Err(InvalidForm(MissingSingle(id, winner, score, date)))
    ensures |MissingSingle(id, winner, score, date)| == 0 && found.None? ==> r == Err(Reported(MatchNotFound))
    ensures r == Err(Reported(MatchNotFound)) ==> found.None?
    ensures |MissingSingle(id, winner, score, date)| == 0 && found.Some? && ParseSingle(found.value, winner, score, date).Err? ==>
              r == Err(Reported(ParseSingle(found.value, winner, score, date).error))
    ensures r.Ok? <==> |MissingSingle(id, winner, score, date)| == 0 && found.Some?
                       && ParseSingle(found.value, winner, score, date).Ok?
    ensures r.Ok? ==> found.Some? && r.value.matchId == id && InMatch(found.value, r.value.winner)
    ensures r.Ok? ==> r.value == ParseSingle(found.value, winner, score, date).value
    ensures r.Ok? ==> |winner| > 0 && |score| > 0 && |date| > 0
  {
    var missing := MissingSingle(id, winner, score, date);
    if |missing| > 0 then Err(InvalidForm(missing))
    else
      match found
      case None => Err(Reported(MatchNotFound))
      case Some(m) =>
        var p := ParseSingle(m, winner, score, date);
        if p.Err? then Err(Reported(p.error)) else Ok(p.value)
  }

  /**
   * The single path stated without splitting: a submission whose score is two
   * colon-free halves around one ':' is stored exactly when the winner is a
   * player of the matchup, both halves are 16-bit decimals and the date is
   * valid, and the stored record carries the larger half as the winner's score.
   */
  lemma SingleAcceptsExactly(m: Matchup, winner: string, a: string, b: string, date: string)
    requires ':' !in a && ':' !in b
    ensures ParseSingle(m, winner, a + ":" + b, date).Ok?
            <==> InMatch(m, winner) && ParseInt16(a).Some? && ParseInt16(b).Some? && ParseDate(date).Some?
    ensures ParseSingle(m, winner, a + ":" + b, date).Ok? ==>
              var x, y := ParseInt16(a).value, ParseInt16(b).value;
              ParseSingle(m, winner, a + ":" + b, date).value
                == Entry(m.id, winner, Max(x, y), Min(x, y), ParseDate(date).value)
  {
    ParseScoreHalves(a, b);
  }

  /**
   * The single path's outcome for every submission whose score is two
   * colon-free halves around one ':': the first check that fails decides the
   * error, in the handler's order.
   */
  lemma SingleErrorOrder(m: Matchup, winner: string, a: string, b: string, date: string)
    requires ':' !in a && ':' !in b
    ensures ParseSingle(m, winner, a + ":" + b, date) ==
              if !InMatch(m, winner) then Err(PlayerNotInMatch)
              else if ParseInt16(a).None? then Err(InvalidWinnerScore)
              else if ParseInt16(b).None? then Err(InvalidLoserScore)
              else if ParseDate(date).None? then Err(InvalidDateFormat)
              else
                var x, y := ParseInt16(a).value, ParseInt16(b).value;
                Ok(Entry(m.id, winner, Max(x, y), Min(x, y), ParseDate(date).value))
  {
    ParseScoreHalves(a, b);
  }

  // ---------------------------------------------------------------------------
  // ScoresBatch

  /**
   * One line of a batch: trimmed, split into white-space separated fields,
   * and stored only if it has exactly three fields (date, winner, score) that
   * pass the winner, date and score checks.
   */
  function ParseLine(m: Matchup, line: string): (r: Option<Entry>)
    ensures r.Some? ==> Storable(m, r.value)
  {
    var t := TrimSpace(line);
    if t == "" then None
    else
      var parts := Fields(t);
      if |parts| != 3 then None
      else
        var date, winner, score := parts[0], parts[1], parts[2];
        if !InMatch(m, winner) then None
        else
          var d := ParseDate(date);
          if d.None? then None
          else
            var sc := ParseScore(score);
            if sc.Err? then None
            else Some(Entry(m.id, winner, sc.value.0, sc.value.1, d.value))
  }

  function ToOption(r: Result<Entry, SingleError>): Option<Entry>
  {
    if r.Ok? then Some(r.value) else None
  }

  /**
   * The batch and single paths apply the same rules: a line is stored exactly
   * when its three fields, read as (date, winner, score), would be accepted
   * by the single-entry path, and it is stored as the same record.
   */
  lemma LineAgreesWithSingle(m: Matchup, line: string)
    ensures var f := Fields(line);
            ParseLine(m, line) == if |f| == 3 then ToOption(ParseSingle(m, f[1], f[2], f[0])) else None
  {
    FieldsTrimSpace(line);
  }

  /** A line spelled as three blank-separated words is the single submission of those words. */
  lemma LineOfWords(m: Matchup, date: string, winner: string, score: string)
    requires |date| > 0 && NoSpace(date)
    requires |winner| > 0 && NoSpace(winner)
    requires |score| > 0 && NoSpace(score)
    ensures ParseLine(m, date + " " + winner + " " + score) == ToOption(ParseSingle(m, winner, score, date))
  {
    var ws := [date, winner, score];
    assert Unwords(ws) == date + " " + winner + " " + score by {
      assert ws[1..] == [winner, score];
      assert [winner, score][1..] == [score];
      assert Join([score], ' ') == score;
      assert Join([winner, score], ' ') == winner + " " + score;
    }
    FieldsUnwords(ws);
    LineAgreesWithSingle(m, date + " " + winner + " " + score);
  }

  /** Only the trimmed text of a line matters. */
  lemma ParseLineTrailingSpace(m: Matchup, line: string, c: char)
    requires IsSpace(c)
    ensures ParseLine(m, line + [c]) == ParseLine(m, line)
  {
    TrimSpaceDropsTrailing(line, c);
  }

  /**
   * The loop over the lines: each line that parses contributes its record,
   * every other line is skipped, and nothing stops the loop.
   */
  function ParseLines(m: Matchup, lines: seq<string>): (r: seq<Entry>)
    ensures |r| <= |lines|
    ensures forall i :: 0 <= i < |r| ==> Storable(m, r[i])
  {
    var f := (line: string) => ParseLine(m, line);
    FilterMapAll(f, lines, (e: Entry) => Storable(m, e));
    FilterMap(f, lines)
  }

  /** The batch loop distributes over concatenation of its input lines. */
  lemma ParseLinesAppend(m: Matchup, a: seq<string>, b: seq<string>)
    ensures ParseLines(m, a + b) == ParseLines(m, a) + ParseLines(m, b)
  {
    FilterMapAppend((line: string) => ParseLine(m, line), a, b);
  }

  lemma ParseLinesOne(m: Matchup, line: string)
    ensures ParseLines(m, [line]) == if ParseLine(m, line).Some? then [ParseLine(m, line).value] else []
  {
    assert [line][1..] == [];
  }

  /** A rejected line is skipped without affecting the lines before or after it. */
  lemma BadLineSkipped(m: Matchup, before: seq<string>, bad: string, after: seq<string>)
    requires ParseLine(m, bad).None?
    ensures ParseLines(m, before + [bad] + after) == ParseLines(m, before) + ParseLines(m, after)
  {
    ParseLinesAppend(m, before + [bad], after);
    ParseLinesAppend(m, before, [bad]);
    ParseLinesOne(m, bad);
  }

  /** An accepted line contributes its record at its own place in the output. */
  lemma GoodLineKept(m: Matchup, before: seq<string>, good: string, after: seq<string>)
    requires ParseLine(m, good).Some?
    ensures ParseLines(m, before + [good] + after)
              == ParseLines(m, before) + [ParseLine(m, good).value] + ParseLines(m, after)
  {
    ParseLinesAppend(m, before + [good], after);
    ParseLinesAppend(m, before, [good]);
    ParseLinesOne(m, good);
  }

  /** A batch of lines that all parse stores one record per line, in line order. */
  lemma AllLinesKept(m: Matchup, lines: seq<string>)
    requires forall i :: 0 <= i < |lines| ==> ParseLine(m, lines[i]).Some?
    ensures |ParseLines(m, lines)| == |lines|
    ensures forall i :: 0 <= i < |lines| ==> ParseLines(m, lines)[i] == ParseLine(m, lines[i]).value
  {
    FilterMapTotal((line: string) => ParseLine(m, line), lines);
  }

  /** The lines of the raw text: "\r\n" turned into "\n", then split on "\n". */
  function Lines(raw: string): (lines: seq<string>)
    ensures |lines| == CountChar(raw, '\n') + 1
  {
    Split(ReplaceCrlf(raw), '\n')
  }

  /** `ScoresBatch` after the matchup lookup: the records stored, in line order. */
  function ParseBatch(m: Matchup, raw: string): (r: seq<Entry>)
    ensures |r| <= CountChar(raw, '\n') + 1
    ensures forall i :: 0 <= i < |r| ==> Storable(m, r[i])
  {
    ParseLines(m, Lines(raw))
  }

  /** The required fields of a batch form that are empty, in declaration order. */
  function MissingBatch(id: MatchupId, raw: string): (missing: seq<FormField>)
    ensures |missing| == 0 <==> id != NilId && |raw| > 0
    ensures MatchupIdField in missing <==> id == NilId
    ensures RawListField in missing <==> |raw| == 0
    ensures WinnerField !in missing && ScoreField !in missing && PlayedAtField !in missing
  {
    (if id == NilId then [MatchupIdField] else []) + (if |raw| == 0 then [RawListField] else [])
  }

  /**
   * `ScoresBatch`: the form is bound first (id and text required), then the
   * matchup is looked up; past those two steps the batch never fails, it
   * only skips lines.
   */
  function ScoresBatch(id: MatchupId, raw: string, found: Option<Matchup>): (r: Result<seq<Entry>, Rejection>)
    requires found.Some? ==> found.value.id == id
    ensures r.Err? <==> id == NilId || |raw| == 0 || found.None?
    ensures id == NilId || |raw| == 0 ==> r == Err(InvalidForm(MissingBatch(id, raw)))
    ensures id != NilId && |raw| > 0 && found.None? ==> r == Err(Reported(MatchNotFound))
    ensures r.Ok? ==> r.value == ParseBatch(found.value, raw)
    ensures r.Ok? ==> |r.value| <= CountChar(raw, '\n') + 1
    ensures r.Ok? ==> forall i :: 0 <= i < |r.value| ==> r.value[i].matchId == id && InMatch(found.value, r.value[i].winner)
  {
    var missing := MissingBatch(id, raw);
    if |missing| > 0 then Err(InvalidForm(missing))
    else
      match found
      case None => Err(Reported(MatchNotFound))
      case Some(m) => Ok(ParseBatch(m, raw))
  }

  /**
   * Windows line endings make no difference: the batch gives the same records
   * as splitting the raw text on "\n" alone, because the '\r' left at a line's
   * end is trimmed away.
   */
  lemma BatchIgnoresCrlf(m: Matchup, raw: string)
    ensures ParseBatch(m, raw) == ParseLines(m, Split(raw, '\n'))
  {
    var a := Split(ReplaceCrlf(raw), '\n');
    var b := Split(raw, '\n');
    SplitReplaceCrlf(raw);
    forall i | 0 <= i < |a|
      ensures ParseLine(m, a[i]) == ParseLine(m, b[i])
    {
      if b[i] != a[i] {
        ParseLineTrailingSpace(m, a[i], '\r');
      }
    }
    FilterMapPointwise((line: string) => ParseLine(m, line), a, b);
  }
}

=== FILE: testhelpers.dfy ===
/**
 * The recursive substring test `contains(s, substr)` of
 * internal/testhelpers/testhelpers.go, which the response assertions of the
 * Go tests use, and its agreement with the plain definition of a substring.
 * Go compares bytes; the model is generic over the element type.
 */
module TestHelpers {

  /** `t` occurs in `s` starting at offset `i`. */
  predicate OccursAt<T(==)>(s: seq<T>, t: seq<T>, i: int)
  {
    0 <= i <= |s| - |t| && s[i..i + |t|] == t
  }

  /**
   * `contains(s, substr)`: long enough, and either equal, or looking for the
   * empty string, or starting with `t`, or containing `t` after the first
   * element. Each recursive call drops one element of `s`.
   */
  function Contains<T(==)>(s: seq<T>, t: seq<T>): (r: bool)
    ensures |t| > |s| ==> !r
    ensures |t| == 0 ==> r
    decreases |s|
  {
    |s| >= |t| && (s == t || |t| == 0 ||
      (|s| > 0 && |t| > 0 &&
        (s[..|t|] == t || Contains(s[1..], t))))
  }

  /** `contains` holds exactly when `t` occurs in `s` at some offset. */
  lemma {:induction false} ContainsIffOccurs<T>(s: seq<T>, t: seq<T>)
    ensures Contains(s, t) <==> exists i :: OccursAt(s, t, i)
    decreases |s|
  {
    if |s| < |t| {
      forall i ensures !OccursAt(s, t, i) { }
    } else if s == t || |t| == 0 {
      assert OccursAt(s, t, 0);
    } else if s[..|t|] == t {
      assert OccursAt(s, t, 0);
    } else {
      ContainsIffOccurs(s[1..], t);
      if exists i :: OccursAt(s, t, i) {
        var i :| OccursAt(s, t, i);
        assert i != 0;
        assert s[1..][i - 1..i - 1 + |t|] == s[i..i + |t|];
        assert OccursAt(s[1..], t, i - 1);
      }
      if exists i :: OccursAt(s[1..], t, i) {
        var i :| OccursAt(s[1..], t, i);
        assert s[i + 1..i + 1 + |t|] == s[1..][i..i + |t|];
        assert OccursAt(s, t, i + 1);
      }
    }
  }

  /** A prefix of `s`, `s` itself included, is contained in `s`. */
  lemma ContainsPrefix<T>(s: seq<T>, t: seq<T>)
    requires t <= s
    ensures Contains(s, t)
  {
    assert |t| <= |s| && s[..|t|] == t;
  }

  /** Whatever surrounds `s`, the elements it contains stay contained. */
  lemma ContainsInContext<T>(a: seq<T>, s: seq<T>, b: seq<T>, t: seq<T>)
    requires Contains(s, t)
    ensures Contains(a + s + b, t)
  {
    ContainsIffOccurs(s, t);
    var i :| OccursAt(s, t, i);
    var whole := a + s + b;
    assert whole[|a| + i..|a| + i + |t|] == s[i..i + |t|];
    assert OccursAt(whole, t, |a| + i);
    ContainsIffOccurs(whole, t);
  }
}

=== FILE: text.dfy ===
/**
 * The string helpers of Go's `strings` package that the score handlers use
 * (`Split`, `ReplaceAll` of "\r\n", `TrimSpace`, `Fields`), with Go's
 * `unicode.IsSpace` as the notion of white space, plus the ASCII lower-casing
 * the configuration parser applies before matching.
 */
module Text {

  /** Go's `unicode.IsSpace`: the Latin-1 spaces and the Unicode White_Space characters. */
  predicate IsSpace(c: char)
  {
    c == '\t' || c == '\n' || c == '\U{000B}' || c == '\U{000C}' || c == '\r' || c == ' '
    || c == '\U{0085}' || c == '\U{00A0}' || c == '\U{1680}'
    || ('\U{2000}' <= c <= '\U{200A}')
    || c == '\U{2028}' || c == '\U{2029}' || c == '\U{202F}' || c == '\U{205F}' || c == '\U{3000}'
  }

  /**
   * Among ASCII characters white space is exactly tab, line feed, vertical
   * tab, form feed, carriage return and space, and no white space character
   * is a letter, a digit or a character of score and date syntax.
   */
  lemma SpaceShape(c: char)
    ensures c as int < 128 ==> (IsSpace(c) <==> c in {'\t', '\n', '\U{000B}', '\U{000C}', '\r', ' '})
    ensures IsSpace(c) ==> !('0' <= c <= '9') && !('A' <= c <= 'Z') && !('a' <= c <= 'z')
    ensures IsSpace(c) ==> c != ':' && c != '-' && c != '+'
  {
  }

  predicate AllSpace(s: string)
  {
    forall i :: 0 <= i < |s| ==> IsSpace(s[i])
  }

  lemma AllSpaceCons(c: char, s: string)
    requires IsSpace(c) && AllSpace(s)
    ensures AllSpace([c] + s)
  {
    assert forall i :: 1 <= i < |[c] + s| ==> ([c] + s)[i] == s[i - 1];
  }

  predicate NoSpace(s: string)
  {
    forall i :: 0 <= i < |s| ==> !IsSpace(s[i])
  }

  /** Number of occurrences of `c` in `s`. */
  function CountChar(s: string, c: char): nat
  {
    if |s| == 0 then 0
    else (if s[0] == c then 1 else 0) + CountChar(s[1..], c)
  }

  lemma CountCharAbsent(s: string, c: char)
    requires c !in s
    ensures CountChar(s, c) == 0
  {
    if |s| > 0 {
      CountCharAbsent(s[1..], c);
    }
  }

  // ---------------------------------------------------------------------------
  // strings.Split with a one-character separator

  /**
   * Go's `strings.Split(s, sep)` for a non-empty, one-character separator:
   * the pieces between the separators, empty pieces included, so there is
   * always one piece more than there are separators.
   */
  function Split(s: string, sep: char): (parts: seq<string>)
    ensures |parts| == CountChar(s, sep) + 1
    ensures forall i :: 0 <= i < |parts| ==> sep !in parts[i]
  {
    if |s| == 0 then [""]
    else if s[0] == sep then [""] + Split(s[1..], sep)
    else
      var rest := Split(s[1..], sep);
      [[s[0]] + rest[0]] + rest[1..]
  }

  /** Go's `strings.Join(parts, sep)`: the inverse of `Split`. */
  function Join(parts: seq<string>, sep: char): string
  {
    if |parts| == 0 then ""
    else if |parts| == 1 then parts[0]
    else parts[0] + [sep] + Join(parts[1..], sep)
  }

  lemma JoinConsFirst(c: char, parts: seq<string>, sep: char)
    requires |parts| >= 1
    ensures Join([[c] + parts[0]] + parts[1..], sep) == [c] + Join(parts, sep)
  {
    var ps := [[c] + parts[0]] + parts[1..];
    if |parts| > 1 {
      assert ps[1..] == parts[1..];
    }
  }

  /** Joining the pieces of a split with the same separator gives back the text. */
  lemma {:induction false} JoinSplit(s: string, sep: char)
    ensures Join(Split(s, sep), sep) == s
  {
    if |s| == 0 {
    } else if s[0] == sep {
      var rest := Split(s[1..], sep);
      JoinSplit(s[1..], sep);
      assert ([""] + rest)[1..] == rest;
      assert Join([""] + rest, sep) == "" + [sep] + Join(rest, sep);
    } else {
      var rest := Split(s[1..], sep);
      JoinSplit(s[1..], sep);
      JoinConsFirst(s[0], rest, sep);
      assert [s[0]] + s[1..] == s;
    }
  }

  /** Splitting the join of separator-free pieces gives back the pieces. */
  lemma {:induction false} SplitJoin(parts: seq<string>, sep: char)
    requires |parts| >= 1
    requires forall i :: 0 <= i < |parts| ==> sep !in parts[i]
    ensures Split(Join(parts, sep), sep) == parts
  {
    if |parts| == 1 {
      SplitNoSeparator(parts[0], sep);
    } else {
      SplitJoin(parts[1..], sep);
      SplitAfterPiece(parts[0], Join(parts[1..], sep), sep);
      assert [parts[0]] + parts[1..] == parts;
    }
  }

  lemma {:induction false} JoinSnoc(parts: seq<string>, last: string, sep: char)
    requires |parts| >= 1
    ensures Join(parts + [last], sep) == Join(parts, sep) + [sep] + last
  {
    if |parts| > 1 {
      JoinSnoc(parts[1..], last, sep);
      assert (parts + [last])[1..] == parts[1..] + [last];
    }
  }

  /** A trailing separator adds one empty piece at the end. */
  lemma SplitTrailingSeparator(s: string, sep: char)
    ensures Split(s + [sep], sep) == Split(s, sep) + [""]
  {
    var ps := Split(s, sep);
    JoinSplit(s, sep);
    JoinSnoc(ps, "", sep);
    assert s + [sep] == Join(ps + [""], sep);
    SplitJoin(ps + [""], sep);
  }

  lemma {:induction false} SplitNoSeparator(s: string, sep: char)
    requires sep !in s
    ensures Split(s, sep) == [s]
  {
    if |s| > 0 {
      SplitNoSeparator(s[1..], sep);
      assert [s[0]] + s[1..] == s;
    }
  }

  /** A separator-free piece followed by a separator becomes the first piece. */
  lemma {:induction false} SplitAfterPiece(a: string, rest: string, sep: char)
    requires sep !in a
    ensures Split(a + [sep] + rest, sep) == [a] + Split(rest, sep)
  {
    if |a| == 0 {
      assert a + [sep] + rest == [sep] + rest;
      assert ([sep] + rest)[1..] == rest;
    } else {
      assert (a + [sep] + rest)[1..] == a[1..] + [sep] + rest;
      SplitAfterPiece(a[1..], rest, sep);
      assert [a[0]] + a[1..] == a;
    }
  }

  // ---------------------------------------------------------------------------
  // strings.ReplaceAll(s, "\r\n", "\n")

  /**
   * Go's `strings.ReplaceAll(s, "\r\n", "\n")`: scanning left to right, every
   * non-overlapping "\r\n" becomes "\n".
   */
  function ReplaceCrlf(s: string): (r: string)
    ensures |r| <= |s|
    ensures CountChar(r, '\n') == CountChar(s, '\n')
  {
    if |s| == 0 then ""
    else if |s| >= 2 && s[0] == '\r' && s[1] == '\n' then "\n" + ReplaceCrlf(s[2..])
    else [s[0]] + ReplaceCrlf(s[1..])
  }

  /** `s` ends with a carriage return. */
  predicate EndsWithCr(s: string)
  {
    |s| > 0 && s[|s| - 1] == '\r'
  }

  /**
   * How the pieces of a text split on '\n' change when its "\r\n" pairs are
   * replaced first: a piece that a '\n' follows and that ends with '\r' loses
   * exactly that '\r'; every other piece, the last one included, is unchanged.
   */
  ghost predicate CrlfStripped(after: seq<string>, before: seq<string>)
  {
    |after| == |before|
    && forall i :: 0 <= i < |before| ==>
         if i < |before| - 1 && EndsWithCr(before[i]) then before[i] == after[i] + ['\r'] else before[i] == after[i]
  }

  /** Prefixing a non-separator character extends the first piece of a split. */
  lemma SplitCons(c: char, t: string, sep: char)
    requires c != sep
    ensures Split([c] + t, sep) == [[c] + Split(t, sep)[0]] + Split(t, sep)[1..]
  {
    assert ([c] + t)[1..] == t;
  }

  /** A new first piece that a separator follows keeps the relation when it is stripped like the others. */
  lemma CrlfStrippedPrepend(a0: string, b0: string, after: seq<string>, before: seq<string>)
    requires |before| >= 1 && CrlfStripped(after, before)
    requires if EndsWithCr(b0) then b0 == a0 + ['\r'] else b0 == a0
    ensures CrlfStripped([a0] + after, [b0] + before)
  {
    var a, b := [a0] + after, [b0] + before;
    forall i | 0 <= i < |b|
      ensures if i < |b| - 1 && EndsWithCr(b[i]) then b[i] == a[i] + ['\r'] else b[i] == a[i]
    {
      if i > 0 {
        assert a[i] == after[i - 1] && b[i] == before[i - 1];
      }
    }
  }

  /**
   * A character other than '\n' put in front of both texts keeps the relation,
   * unless it is a '\r' that would complete a "\r\n" with the '\n' after it.
   */
  lemma CrlfStrippedCons(c: char, after: seq<string>, before: seq<string>)
    requires |before| >= 1
    requires CrlfStripped(after, before)
    requires !(c == '\r' && before[0] == "" && |before| > 1)
    ensures CrlfStripped([[c] + after[0]] + after[1..], [[c] + before[0]] + before[1..])
  {
    var a := [[c] + after[0]] + after[1..];
    var b := [[c] + before[0]] + before[1..];
    forall i | 0 <= i < |b|
      ensures if i < |b| - 1 && EndsWithCr(b[i]) then b[i] == a[i] + ['\r'] else b[i] == a[i]
    {
      if i == 0 {
        if 0 < |before| - 1 && EndsWithCr(before[0]) {
          assert b[0] == ([c] + after[0]) + ['\r'];
        } else if |before[0]| > 0 {
          assert b[0][|b[0]| - 1] == before[0][|before[0]| - 1];
        }
      } else {
        assert a[i] == after[i] && b[i] == before[i];
      }
    }
  }

  /** Replacing "\r\n" by "\n" strips exactly the '\r' that ends a line before a '\n'. */
  lemma {:induction false} SplitReplaceCrlf(s: string)
    ensures CrlfStripped(Split(ReplaceCrlf(s), '\n'), Split(s, '\n'))
  {
    if |s| == 0 {
    } else if |s| >= 2 && s[0] == '\r' && s[1] == '\n' {
      SplitReplaceCrlf(s[2..]);
      var a' := Split(ReplaceCrlf(s[2..]), '\n');
      var b' := Split(s[2..], '\n');
      assert ("\n" + ReplaceCrlf(s[2..]))[1..] == ReplaceCrlf(s[2..]);
      assert Split(ReplaceCrlf(s), '\n') == [""] + a';
      assert s[1..][1..] == s[2..];
      assert Split(s[1..], '\n') == [""] + b';
      SplitCons('\r', s[1..], '\n');
      assert [s[0]] + s[1..] == s;
      assert ([""] + b')[1..] == b';
      assert ['\r'] + "" == "\r";
      assert Split(s, '\n') == ["\r"] + b';
      assert "\r" == "" + ['\r'];
      CrlfStrippedPrepend("", "\r", a', b');
    } else {
      SplitReplaceCrlf(s[1..]);
      var a' := Split(ReplaceCrlf(s[1..]), '\n');
      var b' := Split(s[1..], '\n');
      assert ([s[0]] + ReplaceCrlf(s[1..]))[1..] == ReplaceCrlf(s[1..]);
      if s[0] != '\n' {
        SplitCons(s[0], ReplaceCrlf(s[1..]), '\n');
        SplitCons(s[0], s[1..], '\n');
        assert [s[0]] + s[1..] == s;
        CrlfStrippedCons(s[0], a', b');
      } else {
        CrlfStrippedPrepend("", "", a', b');
      }
    }
  }

  // ---------------------------------------------------------------------------
  // strings.TrimSpace

  /** Drops the leading white space of `s`. */
  function TrimLeft(s: string): (r: string)
    ensures |r| <= |s| && r == s[|s| - |r|..]
    ensures AllSpace(s[..|s| - |r|])
    ensures |r| == 0 || !IsSpace(r[0])
  {
    if |s| > 0 && IsSpace(s[0]) then
      var r := TrimLeft(s[1..]);
      var cut := s[1..][..|s| - 1 - |r|];
      assert s[..|s| - |r|] == [s[0]] + cut;
      AllSpaceCons(s[0], cut);
      r
    else s
  }

  /** Drops the trailing white space of `s`. */
  function TrimRight(s: string): (r: string)
    ensures |r| <= |s| && r == s[..|r|]
    ensures AllSpace(s[|r|..])
    ensures |r| == 0 || !IsSpace(r[|r| - 1])
  {
    if |s| > 0 && IsSpace(s[|s| - 1]) then TrimRight(s[..|s| - 1]) else s
  }

  /** Go's `strings.TrimSpace`: `s` without its leading and trailing white space. */
  function TrimSpace(s: string): (r: string)
    ensures |r| == 0 || (!IsSpace(r[0]) && !IsSpace(r[|r| - 1]))
  {
    TrimRight(TrimLeft(s))
  }

  /** Trimming takes a contiguous slice whose two cut-off ends are all white space. */
  lemma TrimSpaceSlice(s: string)
    ensures exists i, j :: 0 <= i <= j <= |s| && TrimSpace(s) == s[i..j]
                           && AllSpace(s[..i]) && AllSpace(s[j..])
  {
    var l := TrimLeft(s);
    var i := |s| - |l|;
    var j := i + |TrimRight(l)|;
    assert l[..|TrimRight(l)|] == s[i..j];
    assert l[|TrimRight(l)|..] == s[j..];
  }

  lemma TrimLeftTrailingSpace(s: string, c: char)
    requires IsSpace(c)
    ensures TrimLeft(s + [c]) == TrimLeft(s) + [c] || (AllSpace(s) && TrimLeft(s + [c]) == [])
  {
    if |s| > 0 && IsSpace(s[0]) {
      assert (s + [c])[1..] == s[1..] + [c];
      TrimLeftTrailingSpace(s[1..], c);
    } else if |s| == 0 {
      assert s + [c] == [c];
      assert [c][1..] == [];
    }
  }

  /** A trailing white-space character does not change the trimmed text. */
  lemma {:induction false} TrimSpaceDropsTrailing(s: string, c: char)
    requires IsSpace(c)
    ensures TrimSpace(s + [c]) == TrimSpace(s)
  {
    TrimLeftTrailingSpace(s, c);
    if TrimLeft(s + [c]) == TrimLeft(s) + [c] {
      var l := TrimLeft(s);
      assert (l + [c])[..|l + [c]| - 1] == l;
    } else {
      assert TrimRight(TrimLeft(s + [c])) == [];
      AllSpaceTrimLeft(s);
    }
  }

  lemma AllSpaceTrimLeft(s: string)
    requires AllSpace(s)
    ensures TrimLeft(s) == []
  {
    if |s| > 0 {
      AllSpaceTrimLeft(s[1..]);
    }
  }

  // ---------------------------------------------------------------------------
  // strings.Fields

  /** Length of the maximal run of non-space characters at the front of `s`. */
  function WordLength(s: string): (n: nat)
    ensures n <= |s|
    ensures NoSpace(s[..n])
    ensures n == |s| || IsSpace(s[n])
  {
    if |s| == 0 || IsSpace(s[0]) then 0 else 1 + WordLength(s[1..])
  }

  /**
   * Go's `strings.Fields`: the maximal runs of non-space characters of `s`,
   * in order; a text of white space only has no fields.
   */
  function Fields(s: string): (fs: seq<string>)
    ensures forall i :: 0 <= i < |fs| ==> |fs[i]| > 0 && NoSpace(fs[i])
    ensures |fs| == 0 <==> AllSpace(s)
    decreases |s|
  {
    if |s| == 0 then []
    else if IsSpace(s[0]) then Fields(s[1..])
    else
      var n := WordLength(s);
      [s[..n]] + Fields(s[n..])
  }

  /** Concatenation of a sequence of strings. */
  function Concat(ss: seq<string>): string
  {
    if |ss| == 0 then "" else ss[0] + Concat(ss[1..])
  }

  /** `s` with its white space removed. */
  function RemoveSpace(s: string): string
  {
    if |s| == 0 then ""
    else if IsSpace(s[0]) then RemoveSpace(s[1..])
    else [s[0]] + RemoveSpace(s[1..])
  }

  lemma {:induction false} RemoveSpaceOfWord(s: string, n: nat)
    requires n <= |s| && NoSpace(s[..n])
    ensures RemoveSpace(s) == s[..n] + RemoveSpace(s[n..])
  {
    if n == 0 {
      assert s[..0] == "" && s[0..] == s;
    } else {
      var word := s[..n];
      assert !IsSpace(word[0]) && word[0] == s[0];
      assert s[1..][..n - 1] == word[1..];
      assert NoSpace(s[1..][..n - 1]);
      RemoveSpaceOfWord(s[1..], n - 1);
      assert s[1..][n - 1..] == s[n..];
      assert [s[0]] + s[1..][..n - 1] == word;
    }
  }

  /** Fields lose exactly the white space of the text and nothing else. */
  lemma {:induction false} FieldsConcat(s: string)
    ensures Concat(Fields(s)) == RemoveSpace(s)
    decreases |s|
  {
    if |s| == 0 {
    } else if IsSpace(s[0]) {
      FieldsConcat(s[1..]);
    } else {
      var n := WordLength(s);
      FieldsConcat(s[n..]);
      RemoveSpaceOfWord(s, n);
      assert ([s[..n]] + Fields(s[n..]))[1..] == Fields(s[n..]);
    }
  }

  /** Joins non-empty words with single blanks. */
  function Unwords(ws: seq<string>): string
  {
    Join(ws, ' ')
  }

  lemma {:induction false} FieldsOfWordThenSpace(w: string, rest: string)
    requires |w| > 0 && NoSpace(w)
    ensures Fields(w + " " + rest) == [w] + Fields(rest)
  {
    var s := w + " " + rest;
    WordLengthOfWord(w, " " + rest);
    assert s == w + (" " + rest);
    assert s[..|w|] == w;
    assert s[|w|..] == " " + rest;
    assert (" " + rest)[1..] == rest;
  }

  lemma {:induction false} FieldsOfWord(w: string)
    requires |w| > 0 && NoSpace(w)
    ensures Fields(w) == [w]
  {
    WordLengthOfWord(w, "");
    assert w + "" == w;
    assert w[..|w|] == w;
  }

  lemma {:induction false} WordLengthOfWord(w: string, rest: string)
    requires NoSpace(w)
    requires |rest| == 0 || IsSpace(rest[0])
    ensures WordLength(w + rest) == |w|
  {
    if |w| > 0 {
      assert (w + rest)[1..] == w[1..] + rest;
      WordLengthOfWord(w[1..], rest);
    } else {
      assert w + rest == rest;
    }
  }

  /** Splitting blank-separated words into fields gives back the words. */
  lemma {:induction false} FieldsUnwords(ws: seq<string>)
    requires forall i :: 0 <= i < |ws| ==> |ws[i]| > 0 && NoSpace(ws[i])
    ensures Fields(Unwords(ws)) == ws
  {
    if |ws| == 0 {
    } else if |ws| == 1 {
      FieldsOfWord(ws[0]);
    } else {
      FieldsUnwords(ws[1..]);
      FieldsOfWordThenSpace(ws[0], Join(ws[1..], ' '));
      assert [ws[0]] + ws[1..] == ws;
    }
  }

  lemma {:induction false} FieldsTrimLeft(s: string)
    ensures Fields(TrimLeft(s)) == Fields(s)
  {
    if |s| > 0 && IsSpace(s[0]) {
      FieldsTrimLeft(s[1..]);
    }
  }

  lemma {:induction false} FieldsTrailingSpace(s: string, c: char)
    requires IsSpace(c)
    ensures Fields(s + [c]) == Fields(s)
    decreases |s|
  {
    var t := s + [c];
    if |s| == 0 {
      assert t == [c];
      assert t[1..] == [];
    } else if IsSpace(s[0]) {
      assert t[1..] == s[1..] + [c];
      FieldsTrailingSpace(s[1..], c);
    } else {
      var n := WordLength(s);
      WordLengthExtend(s, c);
      assert t[..n] == s[..n];
      assert t[n..] == s[n..] + [c];
      FieldsTrailingSpace(s[n..], c);
    }
  }

  lemma {:induction false} WordLengthExtend(s: string, c: char)
    requires IsSpace(c)
    ensures WordLength(s + [c]) == WordLength(s)
  {
    if |s| > 0 && !IsSpace(s[0]) {
      assert (s + [c])[1..] == s[1..] + [c];
      WordLengthExtend(s[1..], c);
    } else if |s| == 0 {
      assert s + [c] == [c];
    }
  }

  lemma {:induction false} FieldsTrimRight(s: string)
    ensures Fields(TrimRight(s)) == Fields(s)
    decreases |s|
  {
    if |s| > 0 && IsSpace(s[|s| - 1]) {
      var init := s[..|s| - 1];
      FieldsTrimRight(init);
      FieldsTrailingSpace(init, s[|s| - 1]);
      assert init + [s[|s| - 1]] == s;
    }
  }

  /** Trimming before splitting into fields changes nothing. */
  lemma FieldsTrimSpace(s: string)
    ensures Fields(TrimSpace(s)) == Fields(s)
  {
    FieldsTrimRight(TrimLeft(s));
    FieldsTrimLeft(s);
  }

  // ---------------------------------------------------------------------------
  // ASCII lower-casing

  function LowerChar(c: char): char
  {
    if 'A' <= c <= 'Z' then (c as int + 32) as char else c
  }

  /** Lower-cases the ASCII letters of `s` and leaves every other character alone. */
  function ToLowerAscii(s: string): (r: string)
    ensures |r| == |s|
    ensures forall i :: 0 <= i < |s| ==> r[i] == LowerChar(s[i])
  {
    if |s| == 0 then "" else [LowerChar(s[0])] + ToLowerAscii(s[1..])
  }

  /** A text without upper-case ASCII letters is its own lower-casing. */
  lemma ToLowerAsciiNoUpper(s: string)
    requires forall i :: 0 <= i < |s| ==> !('A' <= s[i] <= 'Z')
    ensures ToLowerAscii(s) == s
  {
    var l := ToLowerAscii(s);
    assert forall i :: 0 <= i < |s| ==> l[i] == s[i];
  }

  /** Lower-casing works one character at a time from the front. */
  lemma ToLowerAsciiCons(c: char, s: string)
    ensures ToLowerAscii([c] + s) == [LowerChar(c)] + ToLowerAscii(s)
  {
    assert ([c] + s)[1..] == s;
  }

  /** Lower-casing twice is lower-casing once. */
  lemma ToLowerAsciiIdempotent(s: string)
    ensures ToLowerAscii(ToLowerAscii(s)) == ToLowerAscii(s)
  {
    var l := ToLowerAscii(s);
    assert forall i :: 0 <= i < |l| ==> LowerChar(l[i]) == l[i];
  }
}

=== FILE: wrappers.dfy ===
/** Failure-carrying datatypes shared by every module of the model, and the filter-map over them. */
module Wrappers {

  /** A value that may be absent. */
  datatype Option<+T> = None | Some(value: T)

  /** Either a computed value or the error that prevented it. */
  datatype Result<+T, +E> = Ok(value: T) | Err(error: E)

  /** The values `f` produces for the elements of `xs`, in order, skipping the elements it maps to `None`. */
  function FilterMap<A, B>(f: A -> Option<B>, xs: seq<A>): (r: seq<B>)
    ensures |r| <= |xs|
  {
    if |xs| == 0 then []
    else
      var rest := FilterMap(f, xs[1..]);
      if f(xs[0]).Some? then [f(xs[0]).value] + rest else rest
  }

  /** Filter-mapping distributes over concatenation. */
  lemma {:induction false} FilterMapAppend<A, B>(f: A -> Option<B>, a: seq<A>, b: seq<A>)
    ensures FilterMap(f, a + b) == FilterMap(f, a) + FilterMap(f, b)
  {
    if |a| == 0 {
      assert a + b == b;
    } else {
      assert (a + b)[1..] == a[1..] + b;
      FilterMapAppend(f, a[1..], b);
    }
  }

  /** Every produced value satisfies whatever all of `f`'s values satisfy. */
  lemma {:induction false} FilterMapAll<A, B>(f: A -> Option<B>, xs: seq<A>, p: B -> bool)
    requires forall x :: f(x).Some? ==> p(f(x).value)
    ensures forall i :: 0 <= i < |FilterMap(f, xs)| ==> p(FilterMap(f, xs)[i])
  {
    if |xs| > 0 {
      FilterMapAll(f, xs[1..], p);
    }
  }

  /** When `f` maps every element to a value, nothing is skipped and the values keep their places. */
  lemma {:induction false} FilterMapTotal<A, B>(f: A -> Option<B>, xs: seq<A>)
    requires forall i :: 0 <= i < |xs| ==> f(xs[i]).Some?
    ensures |FilterMap(f, xs)| == |xs|
    ensures forall i :: 0 <= i < |xs| ==> FilterMap(f, xs)[i] == f(xs[i]).value
  {
    if |xs| > 0 {
      FilterMapTotal(f, xs[1..]);
      assert FilterMap(f, xs) == [f(xs[0]).value] + FilterMap(f, xs[1..]);
    }
  }

  /** Two inputs that `f` treats alike element by element give the same output. */
  lemma {:induction false} FilterMapPointwise<A, B>(f: A -> Option<B>, a: seq<A>, b: seq<A>)
    requires |a| == |b|
    requires forall i :: 0 <= i < |a| ==> f(a[i]) == f(b[i])
    ensures FilterMap(f, a) == FilterMap(f, b)
  {
    if |a| > 0 {
      FilterMapPointwise(f, a[1..], b[1..]);
    }
  }

  /** Of three elements whose middle one `f` rejects, the outer two's values are kept, in order. */
  lemma FilterMapSkipMiddle<A, B>(f: A -> Option<B>, x: A, y: A, z: A)
    requires f(x).Some? && f(y).None? && f(z).Some?
    ensures FilterMap(f, [x, y, z]) == [f(x).value, f(z).value]
  {
    assert [z][1..] == [];
    assert FilterMap(f, [z]) == [f(z).value];
    assert [y, z][1..] == [z];
    assert FilterMap(f, [y, z]) == [f(z).value];
    assert [x, y, z][1..] == [y, z];
  }
}
